=== FILE: README.md ===
# YOLO captcha-dataset generator, modelled in Dafny

The program builds YOLO training data for icon captchas. It pastes icons onto
background images, three regions per background, and writes one label line per
icon: `class x_centre y_centre width height`, each value a fraction of the
background's size rounded to six decimals. The class of an icon is found by
the MD5 hash of its file, looked up in an index built from the icon directory
(`get_hash_classes_dict`).

This project models, as pure functions over sequences and integers:

- `Datasets.generate_by_yolo`, in module `Engine`:
  - cutting the shuffled icon list into groups, and the auto-fill of the last
    group (module `Grouping`);
  - the cyclic choice of a group per background;
  - per icon: decoding, optional augmentation, the two `randint` draws of the
    position (module `Placement`), the hash lookup, and the normalised,
    half-even quantised annotation (modules `Yolo` and `Decimal6`);
  - the label text.
- `_perform_icon_image_augmentation` and `_change_icon_color` (module
  `Imaging`).
- `get_hash_classes_dict` and `get_file_hash` of `main.py` (module
  `ClassIndex`).

Random draws are an oracle. A `Stream` maps positions to naturals, and every
draw reads the next position:

- `randint(lo, hi)` is `lo + rng(pos) mod (hi - lo + 1)`. It fails when
  `hi < lo`, as `randint` raises there.
- `random() > 0.5` is a coin.

The MD5 digest, the image decoder and the library's rotation are function
parameters (`Env`). Errors the program raises are `Err` values. A run
returns the samples written before the error that stopped it, if any.

Three behaviours of the code shape the model:

- The rotation angle is `randint(0, 360)`, so both 0 and 360 can be drawn.
- The region width is always `W div 3`, whatever the group size.
- The auto-fill behaves as written. See Findings.

## Model

| member | source | states |
|---|---|---|
| Draws.RandInt | datasets.py:112-119 | `randint(lo, hi)`: the value lies in `[lo, hi]` with both ends included, one draw is consumed, and an empty range (`hi < lo`) is an error naming the range |
| Draws.RandIntReachesEveryValue | datasets.py:112-119 | every value of the range is drawn by some stream, so no bound is looser than the code's |
| Decimal6.RoundHalfEven | datasets.py:135-138 | the integer rounding of `n / d` is within half a unit, and at an exact half it is the even neighbour (`ROUND_HALF_EVEN`, Decimal's default) |
| Decimal6.HalfEvenUnique | datasets.py:135-138 | at most one integer satisfies the half-even condition, so the rounding is fully determined |
| Decimal6.Quantize | datasets.py:135-138 | `quantize(Decimal("0.000000"))` of `num / den`: the sign is that of `num` and the magnitude is the half-even rounding of `|num| * 10^6 / den` |
| Decimal6.QuantizeWithinHalfMillionth | datasets.py:135-138 | the quantised value is within 5e-7 of the exact fraction |
| Decimal6.QuantizeUnitInterval | datasets.py:135-138 | a fraction in [0, 1] quantises to a non-negative value of at most 1.000000 |
| Decimal6.FormatFixed6 | datasets.py:134-138 | `str()` of a quantised value ends in a point and exactly six digits, starts with `-` exactly when the value is negative, has no leading zero in its integer part other than a lone `0`, and holds no space or newline |
| Decimal6.FormatFixed6RoundTrip | datasets.py:134-138 | the printed value reads back to the same sign and millionths |
| Decimal6.FormatUnitInterval | datasets.py:134-138 | a value in [0, 1] prints as `0.dddddd` or `1.000000` |
| Decimal6.IntToString | datasets.py:134 | `str()` of the class id starts with `-` exactly when it is negative, has no leading zero other than in `0` itself, and holds no space or newline |
| Decimal6.IntToStringRoundTrip | datasets.py:134 | `str()` of the class id reads back to the same integer |
| Yolo.Normalise | datasets.py:123-128 | the centre `(2x + w) / 2W`, `(2y + h) / 2H` and the size `w / W`, `h / H` are each rounded half-even to millionths with the right sign; a zero side is a division error |
| Yolo.NormaliseWithinHalfMillionth | datasets.py:123-138 | each of the four written values is within 5e-7 of the exact fraction |
| Yolo.NormaliseUnitInterval | datasets.py:123-138 | a box lying on the canvas gives four values in [0, 1] |
| Yolo.LineText | datasets.py:147 | a label line holds no newline, so lines and records coincide |
| Yolo.LabelText | datasets.py:146-147 | the label text is empty exactly when there are no annotations, and otherwise ends with a newline, each line being written with one |
| Yolo.SplitLabel | datasets.py:144-147 | the label text splits at newlines into exactly one line per annotation, in order, plus the empty tail after the last newline |
| Yolo.ParseLineRoundTrip | datasets.py:132-147 | `" ".join` of the five fields reads back to the same annotation |
| Yolo.ParseLinesRoundTrip | datasets.py:144-147 | the lines read back to the annotations, in order |
| Yolo.LabelRoundTrip | datasets.py:132-147 | the label file determines its annotations: parsing the written text gives back the class ids and quantised values, one per line, in order |
| Imaging.ChangeIconColor | datasets.py:222-240 | the recoloured image keeps its width and height |
| Imaging.ChangeIconColorPointwise | datasets.py:224-238 | a pixel whose three channels each lie in `[t - tol, t + tol]` (both ends included) takes the replacement RGB and keeps its alpha; any other pixel is unchanged |
| Imaging.ChangeIconColorIdempotent | datasets.py:222-240 | replacing twice with the same arguments equals replacing once |
| Imaging.RecolourRowAt | datasets.py:236-238 | pixel `x` of a recoloured row is the recolouring of pixel `x` |
| Imaging.Reverse | datasets.py:196-199 | element `i` of the reversed sequence is element `n-1-i` of the original, and the length is kept |
| Imaging.FlipLeftRight | datasets.py:196-197 | the left-right flip keeps the width and the height |
| Imaging.FlipLeftRightAt | datasets.py:196-197 | after the flip, pixel `(y, x)` is the original pixel `(y, W-1-x)` |
| Imaging.FlipTopBottom | datasets.py:198-199 | the top-bottom flip keeps the width and the height |
| Imaging.FlipTopBottomAt | datasets.py:198-199 | after the flip, row `y` is the original row `H-1-y` |
| Imaging.FlipLeftRightInvolution | datasets.py:196-197 | flipping left-right twice restores the image |
| Imaging.FlipTopBottomInvolution | datasets.py:198-199 | flipping top-bottom twice restores the image |
| Imaging.DrawChannel | datasets.py:186-188 | each replacement channel lies in [1, 255] |
| Imaging.DrawAngle | datasets.py:194 | the rotation angle lies in [0, 360] |
| Draws.Coin | datasets.py:181-199 | each `random() > 0.5` consumes exactly one draw |
| Imaging.DrawAugmentation | datasets.py:181-199 | the draws come in program order: colour coin, three channels, rotation coin, angle, two flip coins; a coin is drawn only when its flag is set; a step runs exactly when its flag is set and its coin passes; the channels and the angle are the draws that follow their coin; the number of draws consumed is exactly the coins and values drawn |
| Imaging.ApplyAugmentation | datasets.py:181-201 | without rotation the size is kept; with rotation the size is that of the rotated recoloured image; with no step chosen the image is unchanged |
| Imaging.Coloured | datasets.py:181-191 | the colour step keeps the width and the height |
| Imaging.Rotated | datasets.py:192-195 | without an angle drawn the rotation step leaves the width and the height unchanged (with one, the size is the library's, see `ApplyAugmentation`) |
| Imaging.Flips | datasets.py:196-199 | the two flips keep the width and the height |
| Imaging.ColouredAt | datasets.py:181-191 | after the colour step, a pixel is recoloured when the step ran and unchanged otherwise |
| Imaging.FlipsAt | datasets.py:196-199 | after the two flips, pixel `(y, x)` is the original pixel at the mirrored row when the top-bottom flip ran and at the mirrored column when the left-right flip ran |
| Imaging.ApplyAugmentationPointwise | datasets.py:181-201 | without rotation, pixel `(y, x)` of the result is the pixel the flips bring there from the original, recoloured when the colour step ran: recolouring comes before the flips |
| Imaging.ApplyAugmentationRotated | datasets.py:181-201 | with rotation, the rotation receives the recoloured image and the flips act on the rotated image |
| Imaging.Augment | datasets.py:181-201 | with every flag off nothing is drawn and the icon is unchanged; without rotation the size is kept; at most eight draws are consumed |
| Imaging.AugmentWithoutRotation | datasets.py:181-201 | end to end without rotation: pixel `(y, x)` is the source pixel mirrored by each flip whose coin passed, recoloured with the three drawn channels when the colour coin passed |
| Grouping.ChunksPartition | datasets.py:79-82 | the groups concatenate back to the icon list; every group is non-empty with at most `g` icons, and all but the last hold exactly `g` |
| Grouping.ChunkSlices | datasets.py:79-82 | group `k` is the slice `[k*g, min((k+1)*g, n))` |
| Grouping.ChunkCount | datasets.py:79-82 | the number of groups is the ceiling of `n / g` |
| Grouping.ChunksOf | datasets.py:79-82 | the comprehension gives no groups exactly for an empty list; otherwise the first group is a non-empty prefix of at most `g` icons |
| Grouping.Chunk | datasets.py:79-82 | a zero step raises `ZeroStep`, a negative step gives no groups, and a positive step gives groups that join back to the icon list, each non-empty with at most `g` icons and all but the last with exactly `g` |
| Grouping.FillDraws | datasets.py:86-89 | the fill appends `max(0, count)` icons, each `icons[rng(i) mod (n+1)]` for its draw `i`; an index equal to `n` is an out-of-range error |
| Grouping.FillDrawsFailsIffIndexIsLength | datasets.py:86-89 | the fill fails exactly when one of its draws lands on `n`, one past the end |
| Grouping.AutoFill | datasets.py:85-89 | only the last group changes, only when the flag is set and it is short, by appending `max(0, g - number of groups)` listed icons; with no groups, the flag raises |
| Grouping.PrepareGroups | datasets.py:79-89 | a zero step raises; without the fill the groups are the chunks |
| Grouping.PreparedIconsComeFromList | datasets.py:79-89 | every icon of every prepared group is a listed icon |
| Grouping.AutoFillFallsShort | datasets.py:85-89 | as written: four icons in groups of three leave a last group of two after the fill |
| Grouping.AutoFillIndexCanBeLength | datasets.py:88 | as written: a draw of `len(icons)` makes the fill raise |
| Grouping.FillDrawsIntended | datasets.py:86-89 | corrected draw `randint(0, n - 1)`: exactly `count` listed icons, never an error |
| Grouping.AutoFillIntended | datasets.py:85-89 | corrected fill: a short last group is topped up to exactly `g`, the other groups unchanged |
| Grouping.IntendedGroupsAreFull | datasets.py:79-89 | with the corrected fill every group holds exactly `g` icons, whatever the draws |
| Placement.PlaceIcon | datasets.py:112-119 | the position succeeds exactly when `padding + i*rx <= (i+1)*rx - w` and `padding <= H - h`, with `rx = W div 3`; then `x` and `y` lie in those ranges, the box has the icon's size, and two draws are consumed |
| Placement.PlacedBoxesDoNotOverlap | datasets.py:95-115 | with a non-negative padding, icon `i` ends at or before the column where a later icon `j` starts |
| Placement.FirstThreeInsideCanvas | datasets.py:95-119 | with a non-negative padding the first three icons lie on the canvas |
| Placement.FourthOnwardOffCanvas | datasets.py:95-115 | from the fourth icon on, with a padding of at least 3, the icon starts past the right edge |
| ClassIndex.PngFiles | main.py:17 | `glob("*.png")` keeps exactly the listed files with extension `png` |
| ClassIndex.PngFilesAppend | main.py:17 | the filter keeps the listing's order and repeats: filtering a concatenation is concatenating the filtered parts |
| ClassIndex.PngFilesAround | main.py:17 | a kept file sits in the filtered listing between the kept files before it and those after it |
| ClassIndex.IndexOf | main.py:22 | `classes.index(name)` gives the first position holding the name, or nothing when the name is absent |
| ClassIndex.BuildFrom | main.py:16-23 | the index is built exactly when every stem is a class name; otherwise the error names a stem that is not one |
| ClassIndex.BuildFromKeys | main.py:19-22 | the keys are exactly the hashes of the files |
| ClassIndex.BuildFromValues | main.py:19-22 | every value `v` satisfies `0 <= v < len(classes)`, is the first position of its name, and that name is the stem of a file with the key's hash |
| ClassIndex.BuildReportsFirstUnknown | main.py:19-22 | the first file in listing order whose stem is not a class name is the one reported |
| ClassIndex.BuildLastWins | main.py:19-22 | when files share a hash, the last of them in listing order gives the class id |
| ClassIndex.BuildIndexLastWins | main.py:16-23 | over a directory listing: when `.png` files share a hash, the last of them in listing order gives the class id |
| ClassIndex.BuildIndex | main.py:16-23 | over a directory listing: the index is built exactly when every listed `.png` file's stem is a class name; its keys are exactly the hashes of the listed `.png` files, and its values are positions in the class list |
| ClassIndex.BuildIndexValues | main.py:16-23 | each hash maps to the first position of a class name that is the stem of a listed `.png` file with that hash |
| ClassIndex.GetHashClassesDict | main.py:16-23 | with the program's two classes, the index is built exactly when every `.png` stem is one of them, and every class id is 0 or 1 |
| Engine.Prepared | datasets.py:101-111 | the pasted image has the decoded icon's size unless a rotation may have run; without augmentation nothing is drawn, with it at most eight draws |
| Engine.DrawIcon | datasets.py:100-131 | an icon succeeds exactly when the position draws for the size of the (possibly augmented) image succeed, the background has non-zero sides and the hash of the original file is indexed; the position draws follow the augmentation's; then its box has the pasted image's size and lies in its region; a missing hash is reported only for a hash absent from the index |
| Engine.PlaceFrom | datasets.py:100-131 | a completed loop places one box per icon, and every file it passed is indexed |
| Engine.Annotate | datasets.py:123-140 | one annotation per icon |
| Engine.PlaceFromInRegion | datasets.py:95-119 | box `k` lies in region `k`: `padding + k*rx <= x <= (k+1)*rx - w` and `padding <= y <= H - h`; unless a rotation may have run, it has the size of the decoded icon `k` |
| Engine.AnnotateAt | datasets.py:123-140 | annotation `k` carries the class id of the hash of `group[k]` and is the normalisation of box `k` |
| Engine.RenderGroup | datasets.py:99-140 | a rendered group has one box and one annotation per icon |
| Engine.RenderGroupRendersEach | datasets.py:99-140 | for every icon, its annotation is its indexed class id with its normalised box, its box lies in its region and, unless a rotation may have run, has the icon's size |
| Engine.RenderGroupFindsIndexed | datasets.py:129-131 | a group whose files are all indexed never fails on a missing hash |
| Engine.RegionBoxesDoNotOverlap | datasets.py:112-115 | with a non-negative padding, boxes of earlier regions end before boxes of later ones start |
| Engine.PlaceFromSucceeds | datasets.py:112-131 | unless a rotation may change an icon's size, the loop completes when the background has non-zero sides, every file is indexed, and each icon plus the padding fits a third of the width and the height |
| Engine.RenderGroupSucceeds | datasets.py:99-131 | the same conditions make a whole group render |
| Engine.RenderBackground | datasets.py:97-147 | a background shows the current group, with one box and one annotation per icon |
| Engine.BackgroundAnnotatesGroup | datasets.py:97-140 | a background's boxes and annotations are those of its group's icons, in group order, each box in the region of its position and, unless a rotation may have run, of its icon's size |
| Engine.RunFrom | datasets.py:91-152 | at most one sample per background, and a run without failure writes one for every background |
| Engine.Advance | datasets.py:150-152 | the current index moves one on, or back to 0, and always lands inside a non-empty group list |
| Engine.CyclesFromAt | datasets.py:150-152 | sample `k` shows the group reached by `k` advances of the current index |
| Engine.RunFromCycles | datasets.py:91-152 | every written sample shows the group the current index reached, with one box and one annotation per icon of it |
| Engine.RendersFromAt | datasets.py:91-152 | sample `k` belongs to background `k` and holds the rendering of every icon of its group on it: class id, normalised box, region and, unless a rotation may have run, the icon's size |
| Engine.RunFromRenders | datasets.py:91-152 | each sample of a run was rendered on its own background: every icon of its group has its indexed class id, its normalised box, its region and, unless a rotation may have run, its size |
| Engine.RunFromFindsIndexedIcons | datasets.py:92-131 | when every icon of every group is indexed, a run never stops on a missing hash |
| Engine.CycleIsModular | datasets.py:150-152 | starting inside the list, `k` advances land on `(cur + k) mod n` |
| Engine.RunFromSucceeds | datasets.py:91-152 | unless a rotation may change an icon's size, on non-empty backgrounds large enough for every icon and with every hash indexed, every background is written |
| Engine.Generate | datasets.py:78-152 | a zero group size raises before anything is written; otherwise at most one sample per background, and one for each when nothing fails |
| Engine.GenerateCyclesThroughGroups | datasets.py:91-152 | background `k` shows group `k mod (number of groups)` |
| Engine.GenerateRendersEachBackground | datasets.py:91-147 | background `k` shows group `k mod (number of groups)`, and every icon of that group was rendered on background `k`: its box in its region and, unless a rotation may have run, of the icon's size, its annotation its class id with the normalised box |
| Engine.GenerateWritesFaithfulLabels | datasets.py:141-147 | every written sample has one box and one annotation per icon of its group, and its label file reads back to those annotations |
| Engine.IndexFromIconDirectoryCoversIcons | datasets.py:129-131 | with the index built by `get_hash_classes_dict` from the directory the icons were listed from, with the same hash, no run fails on a missing hash |

## Left out

- Image I/O: opening and decoding files, the alpha `paste` onto the
  background, and the JPEG `save`. The decoder is the `decode` parameter. A
  background is only its size, and pasting does not change any output of the
  model.
- Rotation: bicubic resampling with an expanded canvas is floating-point
  geometry in the image library. It is the `rotate` parameter. Only its angle
  draw is modelled.
- MD5: `get_file_hash` and `_get_image_hash` are one uninterpreted function
  (`Digest`) of the file's bytes.
- Directory globbing and the seeded shuffles in the constructor: the
  backgrounds and icons are given, already shuffled, as sequences.
- ClassIndex.PngFiles: a listing holds only regular files with a non-empty
  name before `.png`. `Path.glob("*.png")` also matches a dotfile named
  `.png`, whose stem is `.png` and whose suffix is empty, and a directory
  named like `x.png`, which `open` then fails to read. Neither can be
  written as a `File`.
- `uuid4` file names, `mkdir` and file writes: a sample's label file is its
  text (`LabelFile`).
- `main()`: a fixed call with empty paths.
- The random generator itself: draws come from the `Stream` oracle.
  `random() > 0.5` is modelled as the parity of a draw.
- Yolo.Normalise: `width_norm` and `height_norm` divide as floats before
  becoming Decimals, and the centres divide under Decimal's 28-digit
  context. The model divides exact rationals, so the written digits can
  differ from the program's when a value lies at, or within float error of,
  an exact half-millionth.
- Imaging.ApplyAugmentation: with rotation, the size and the pixels are
  stated only relative to the library's rotated image (`rotate`), because the
  bicubic resampling is not modelled.
- Imaging.Augment: the pixel-level statement from the draws to the result
  (`AugmentWithoutRotation`) is given without rotation. With rotation it is
  given in two parts: `DrawAugmentation` for the draws and
  `ApplyAugmentationRotated` for the image.
- Engine.DrawIcon: the annotation values are computed after the loop over
  the group (`Annotate`), not inside it. The loop body performs the same
  draws, in the same order, and raises the same errors. The values it defers
  draw nothing and cannot fail once those checks pass, so the outputs are
  the same.
- Engine.RunFromSucceeds: proved only when rotation is off or augmentation
  is off, because a rotated icon's size comes from the library's `rotate`.
  The same holds for `PlaceFromSucceeds` and `RenderGroupSucceeds`.
- Engine.PlaceFromInRegion: with rotation on, the box size is tied to the
  rotated image only per icon, in `DrawIcon` (through `Prepared`), because
  the size then depends on the library's `rotate` and the angle drawn.
- Engine.RenderGroupRendersEach: with rotation on, the box size is not
  tied to the decoded icon, for the reason given for `PlaceFromInRegion`.
- Engine.BackgroundAnnotatesGroup: with rotation on, the box size is not
  tied to the decoded icon, for the same reason.
- Engine.RendersFromAt: with rotation on, the box size is not tied to the
  decoded icon, for the same reason.
- Engine.RunFromRenders: with rotation on, the box size is not tied to the
  decoded icon, for the same reason.
- Engine.GenerateRendersEachBackground: with rotation on, the box size is
  not tied to the decoded icon, for the same reason.

## Findings

| source | as written | input that shows it | evidently intended | confidence | as-written member | corrected member |
|---|---|---|---|---|---|---|
| datasets.py:86 | the fill appends `group_icon_num - len(icon_images_path)` icons: the number of groups, not the last group's shortfall | 4 icons, `group_icon_num = 3`: groups `[a,b,c]`, `[d]`; one icon is appended and the last group holds 2 | append `group_icon_num - len(icon_images_path[-1])` so the last group is full | high (not executed) | Grouping.AutoFillFallsShort | Grouping.IntendedGroupsAreFull |
| datasets.py:88 | `random.randint(0, len(self.icon_images_path))` includes `len`, one past the end | 4 icons and a draw of 4: `icon_images_path[4]` raises | draw from `0` to `len - 1` | high (not executed) | Grouping.AutoFillIndexCanBeLength | Grouping.FillDrawsIntended |

=== FILE: classindex.dfy ===
/** The class index of `main.py`: every listed `.png` icon's content hash
    mapped to the position of its file name in the class list. */
module ClassIndex {
  import opened Common

  /** An icon file: its name without the extension, the extension, and its
      raw bytes. */
  datatype File = File(stem: string, ext: string, bytes: seq<Byte>)

  /** The content hash of a file's bytes (an MD5 hex digest in the program);
      the same function serves the index and the generator. */
  type Digest = seq<Byte> -> string

  /** The class names; a class id is a position in this list. */
  const Classes: seq<string> := ["蚂蚁", "青蛙"]

  predicate IsPng(f: File)
  {
    f.ext == "png"
  }

  /** The files `glob("*.png")` yields, in listing order. */
  function PngFiles(listing: seq<File>): (r: seq<File>)
    ensures forall f :: f in r <==> f in listing && IsPng(f)
  {
    if |listing| == 0 then []
    else if IsPng(listing[0]) then [listing[0]] + PngFiles(listing[1..])
    else PngFiles(listing[1..])
  }

  /** The filter keeps the listing's order and repeats: filtering two
      listings one after the other is filtering their concatenation. */
  lemma {:induction false} PngFilesAppend(a: seq<File>, b: seq<File>)
    ensures PngFiles(a + b) == PngFiles(a) + PngFiles(b)
    decreases |a|
  {
    if |a| > 0 {
      assert (a + b)[0] == a[0];
      assert (a + b)[1..] == a[1..] + b;
      PngFilesAppend(a[1..], b);
    } else {
      assert a + b == b;
    }
  }

  /** `classes.index(name)`: the first position holding `name`, if any. */
  function IndexOf(classes: seq<string>, name: string): (r: Option<nat>)
    ensures r.None? <==> name !in classes
    ensures r.Some? ==> r.value < |classes| && classes[r.value] == name
    ensures r.Some? ==> forall j :: 0 <= j < r.value ==> classes[j] != name
  {
    if |classes| == 0 then None
    else if classes[0] == name then Some(0)
    else match IndexOf(classes[1..], name)
      case None => None
      case Some(v) => Some(v + 1)
  }

  /** The loop of `get_hash_classes_dict` over `files`, in order: each file
      sets `data[hash] = classes.index(stem)`; an unknown stem raises. */
  function BuildFrom(classes: seq<string>, digest: Digest, files: seq<File>): (r: Result<map<string, int>>)
    ensures r.Ok? <==> forall i :: 0 <= i < |files| ==> files[i].stem in classes
    ensures r.Err? ==> r.error.UnknownClass? && r.error.stem !in classes
  {
    if |files| == 0 then Ok(map[])
    else
      var prefix := files[..|files| - 1];
      var f := files[|files| - 1];
      var m :- BuildFrom(classes, digest, prefix);
      match IndexOf(classes, f.stem)
      case None => Err(UnknownClass(f.stem))
      case Some(v) =>
        assert forall i :: 0 <= i < |prefix| ==> prefix[i] == files[i];
        Ok(m[digest(f.bytes) := v])
  }

  /** An entry of the index: a position of the class list holding a name no
      earlier position holds, and the name of a file with that hash. */
  predicate IndexEntry(classes: seq<string>, digest: Digest, files: seq<File>, h: string, id: int)
  {
    && 0 <= id < |classes|
    && (forall j :: 0 <= j < id ==> classes[j] != classes[id])
    && exists i :: 0 <= i < |files| && digest(files[i].bytes) == h && files[i].stem == classes[id]
  }

  /** The index has exactly one key per distinct hash of the files. */
  lemma {:induction false} BuildFromKeys(classes: seq<string>, digest: Digest, files: seq<File>)
    requires BuildFrom(classes, digest, files).Ok?
    ensures BuildFrom(classes, digest, files).value.Keys == (set i | 0 <= i < |files| :: digest(files[i].bytes))
    decreases |files|
  {
    if |files| > 0 {
      var prefix := files[..|files| - 1];
      var f := files[|files| - 1];
      BuildFromKeys(classes, digest, prefix);
      var keys := BuildFrom(classes, digest, prefix).value.Keys;
      var keys' := BuildFrom(classes, digest, files).value.Keys;
      assert keys' == keys + {digest(f.bytes)};
      var want := set i | 0 <= i < |files| :: digest(files[i].bytes);
      forall h | h in keys'
        ensures h in want
      {
        if h != digest(f.bytes) {
          var i :| 0 <= i < |prefix| && digest(prefix[i].bytes) == h;
          assert files[i] == prefix[i];
        }
      }
      forall i | 0 <= i < |files|
        ensures digest(files[i].bytes) in keys'
      {
        if i < |prefix| {
          assert files[i] == prefix[i];
        }
      }
    }
  }

  /** Each key maps to the first position of the name of a file with that
      hash. */
  lemma {:induction false} BuildFromValues(classes: seq<string>, digest: Digest, files: seq<File>)
    requires BuildFrom(classes, digest, files).Ok?
    ensures var m := BuildFrom(classes, digest, files).value;
            forall h :: h in m ==> IndexEntry(classes, digest, files, h, m[h])
    decreases |files|
  {
    if |files| > 0 {
      var prefix := files[..|files| - 1];
      var f := files[|files| - 1];
      BuildFromValues(classes, digest, prefix);
      var m := BuildFrom(classes, digest, prefix).value;
      var v := IndexOf(classes, f.stem).value;
      var m' := BuildFrom(classes, digest, files).value;
      assert m' == m[digest(f.bytes) := v];
      forall h | h in m'
        ensures IndexEntry(classes, digest, files, h, m'[h])
      {
        if h == digest(f.bytes) {
          assert files[|files| - 1] == f;
        } else {
          assert IndexEntry(classes, digest, prefix, h, m[h]);
          var i :| 0 <= i < |prefix| && digest(prefix[i].bytes) == h && prefix[i].stem == classes[m[h]];
          assert files[i] == prefix[i];
        }
      }
    }
  }

  /** `get_hash_classes_dict` over a directory listing: it fails exactly
      when a `.png` file's stem is not a class name; otherwise its keys are
      the hashes of the `.png` files and its values are class ids. */
  function BuildIndex(classes: seq<string>, digest: Digest, listing: seq<File>): (r: Result<map<string, int>>)
    ensures r.Ok? <==> forall f :: f in listing && IsPng(f) ==> f.stem in classes
    ensures r.Ok? ==> r.value.Keys == set f | f in listing && IsPng(f) :: digest(f.bytes)
    ensures r.Ok? ==> forall h :: h in r.value ==> 0 <= r.value[h] < |classes|
  {
    BuildIndexFails(classes, digest, listing);
    var r := BuildFrom(classes, digest, PngFiles(listing));
    if r.Ok? then
      BuildIndexKeys(classes, digest, listing);
      BuildFromValues(classes, digest, PngFiles(listing));
      r
    else r
  }

  lemma BuildIndexFails(classes: seq<string>, digest: Digest, listing: seq<File>)
    ensures BuildFrom(classes, digest, PngFiles(listing)).Ok?
            <==> forall f :: f in listing && IsPng(f) ==> f.stem in classes
  {
    var files := PngFiles(listing);
    if !BuildFrom(classes, digest, files).Ok? {
      var i :| 0 <= i < |files| && files[i].stem !in classes;
      assert files[i] in files;
    }
  }

  lemma BuildIndexKeys(classes: seq<string>, digest: Digest, listing: seq<File>)
    requires BuildFrom(classes, digest, PngFiles(listing)).Ok?
    ensures BuildFrom(classes, digest, PngFiles(listing)).value.Keys
            == set f | f in listing && IsPng(f) :: digest(f.bytes)
  {
    var files := PngFiles(listing);
    BuildFromKeys(classes, digest, files);
    var byIndex := set i | 0 <= i < |files| :: digest(files[i].bytes);
    var byFile := set f | f in listing && IsPng(f) :: digest(f.bytes);
    forall h | h in byIndex
      ensures h in byFile
    {
      var i :| 0 <= i < |files| && digest(files[i].bytes) == h;
      assert files[i] in files;
    }
    forall h | h in byFile
      ensures h in byIndex
    {
      var f :| f in listing && IsPng(f) && digest(f.bytes) == h;
      assert f in files;
      var i :| 0 <= i < |files| && files[i] == f;
    }
    assert byIndex == byFile;
  }

  /** Each hash maps to the first position of the name of a listed `.png`
      file with that hash. */
  lemma BuildIndexValues(classes: seq<string>, digest: Digest, listing: seq<File>, h: string)
    requires BuildIndex(classes, digest, listing).Ok? && h in BuildIndex(classes, digest, listing).value
    ensures var id := BuildIndex(classes, digest, listing).value[h];
      && 0 <= id < |classes| && (forall j :: 0 <= j < id ==> classes[j] != classes[id])
      && exists f :: f in listing && IsPng(f) && digest(f.bytes) == h && f.stem == classes[id]
  {
    var files := PngFiles(listing);
    var m := BuildFrom(classes, digest, files).value;
    BuildFromValues(classes, digest, files);
    assert IndexEntry(classes, digest, files, h, m[h]);
    var i :| 0 <= i < |files| && digest(files[i].bytes) == h && files[i].stem == classes[m[h]];
    assert files[i] in files;
  }

  /** The index of the program's own class list: class ids 0 and 1. */
  function GetHashClassesDict(digest: Digest, listing: seq<File>): (r: Result<map<string, int>>)
    ensures r.Ok? <==> forall f :: f in listing && IsPng(f) ==> f.stem in Classes
    ensures r.Ok? ==> forall h :: h in r.value ==> r.value[h] == 0 || r.value[h] == 1
  {
    BuildIndex(Classes, digest, listing)
  }

  /** The first file (in order) whose stem is not a class name is the one
      reported. */
  lemma {:induction false} BuildReportsFirstUnknown(classes: seq<string>, digest: Digest, files: seq<File>, i: nat)
    requires i < |files| && files[i].stem !in classes
    requires forall j :: 0 <= j < i ==> files[j].stem in classes
    ensures BuildFrom(classes, digest, files) == Err(UnknownClass(files[i].stem))
    decreases |files|
  {
    var prefix := files[..|files| - 1];
    if i < |files| - 1 {
      BuildReportsFirstUnknown(classes, digest, prefix, i);
    } else {
      assert forall j :: 0 <= j < |prefix| ==> prefix[j].stem in classes;
    }
  }

  /** When several files share a hash, the last of them in listing order
      decides the class id. */
  lemma {:induction false} BuildLastWins(classes: seq<string>, digest: Digest, files: seq<File>, i: nat)
    requires BuildFrom(classes, digest, files).Ok?
    requires i < |files|
    requires forall j :: i < j < |files| ==> digest(files[j].bytes) != digest(files[i].bytes)
    ensures var m := BuildFrom(classes, digest, files).value;
            digest(files[i].bytes) in m && m[digest(files[i].bytes)] == IndexOf(classes, files[i].stem).value
    decreases |files|
  {
    var prefix := files[..|files| - 1];
    if i < |files| - 1 {
      assert BuildFrom(classes, digest, prefix).Ok?;
      BuildLastWins(classes, digest, prefix, i);
    }
  }

  /** The files kept around a kept file `listing[i]`. */
  lemma PngFilesAround(listing: seq<File>, i: nat)
    requires i < |listing| && IsPng(listing[i])
    ensures PngFiles(listing) == PngFiles(listing[..i]) + [listing[i]] + PngFiles(listing[i + 1..])
  {
    var before, after := listing[..i], listing[i + 1..];
    var rest := [listing[i]] + after;
    assert PngFiles(rest) == [listing[i]] + PngFiles(after) by {
      assert rest[0] == listing[i] && rest[1..] == after;
    }
    assert listing == before + rest;
    PngFilesAppend(before, rest);
    assert PngFiles(before) + ([listing[i]] + PngFiles(after))
        == PngFiles(before) + [listing[i]] + PngFiles(after);
  }

  /** A file kept from the listing after position `i` is a `.png` file listed
      after `i`. */
  lemma PngFilesAfter(listing: seq<File>, i: nat, f: File)
    requires i < |listing| && f in PngFiles(listing[i + 1..])
    ensures IsPng(f) && exists j :: i < j < |listing| && listing[j] == f
  {
    var k :| 0 <= k < |listing[i + 1..]| && listing[i + 1..][k] == f;
    assert listing[i + 1 + k] == f;
  }

  /** A kept file `listing[i]` sits in the filtered listing at the number of
      files kept before it. */
  lemma KeptAt(listing: seq<File>, i: nat)
    requires i < |listing| && IsPng(listing[i])
    ensures var idx := |PngFiles(listing[..i])|;
            idx < |PngFiles(listing)| && PngFiles(listing)[idx] == listing[i]
  {
    PngFilesAround(listing, i);
  }

  /** When no `.png` file listed after `listing[i]` shares its hash, no file
      kept after it does. */
  lemma KeptLaterDiffer(digest: Digest, listing: seq<File>, i: nat)
    requires i < |listing| && IsPng(listing[i])
    requires forall j :: i < j < |listing| && IsPng(listing[j]) ==>
               digest(listing[j].bytes) != digest(listing[i].bytes)
    ensures var files := PngFiles(listing);
            forall j :: |PngFiles(listing[..i])| < j < |files| ==>
              digest(files[j].bytes) != digest(listing[i].bytes)
  {
    var files := PngFiles(listing);
    var idx := |PngFiles(listing[..i])|;
    var after := PngFiles(listing[i + 1..]);
    PngFilesAround(listing, i);
    forall j | idx < j < |files|
      ensures digest(files[j].bytes) != digest(listing[i].bytes)
    {
      var f := files[j];
      assert f == after[j - idx - 1];
      PngFilesAfter(listing, i, f);
      var k :| i < k < |listing| && listing[k] == f;
      assert IsPng(listing[k]);
    }
  }

  /** Over a directory listing: when several `.png` files share a hash, the
      last of them in listing order decides the class id. */
  lemma BuildIndexLastWins(classes: seq<string>, digest: Digest, listing: seq<File>, i: nat)
    requires BuildIndex(classes, digest, listing).Ok?
    requires i < |listing| && IsPng(listing[i])
    requires forall j :: i < j < |listing| && IsPng(listing[j]) ==>
               digest(listing[j].bytes) != digest(listing[i].bytes)
    ensures var m := BuildIndex(classes, digest, listing).value;
            digest(listing[i].bytes) in m && m[digest(listing[i].bytes)] == IndexOf(classes, listing[i].stem).value
  {
    var files := PngFiles(listing);
    var idx := |PngFiles(listing[..i])|;
    KeptAt(listing, i);
    KeptLaterDiffer(digest, listing, i);
    assert BuildFrom(classes, digest, files).Ok?;
    BuildLastWins(classes, digest, files, idx);
  }
}

=== FILE: common.dfy ===
/** Shared vocabulary: bytes, optional values, the errors the generator can
    raise, a failure-compatible result type for `:-`, and the monotonicity
    of multiplication that the region arithmetic relies on. */
module Common {

  /** An unsigned 8-bit value: a file byte or an image channel. */
  type Byte = x: int | 0 <= x < 256

  datatype Option<+T> = None | Some(value: T)

  /** The exceptions the generator and the index builder raise. */
  datatype Error =
    /** `random.randint(lo, hi)` with `hi < lo` */
    | EmptyRange(lo: int, hi: int)
    /** a list subscript outside `[0, length)` (Python's IndexError) */
    | IndexOutOfRange(index: int, length: nat)
    /** `range(0, n, 0)`: a group size of zero */
    | ZeroStep
    /** normalising by a background side of zero */
    | ZeroDivision
    /** an icon whose content hash has no class id */
    | UnknownIconHash(hash: string)
    /** an icon file whose stem is not a class name */
    | UnknownClass(stem: string)

  /** Multiplying by a natural keeps the order. */
  lemma MulMonotone(a: int, b: int, c: nat)
    requires a <= b
    ensures a * c <= b * c
  {
  }

  datatype Result<+T> = Ok(value: T) | Err(error: Error) {
    predicate IsFailure() {
      Err?
    }

    function PropagateFailure<U>(): Result<U>
      requires Err?
    {
      Err(error)
    }

    function Extract(): T
      requires Ok?
    {
      value
    }
  }
}

=== FILE: decimal6.dfy ===
/** Fixed-point decimals with six fractional digits, as produced by
    `Decimal.quantize(Decimal("0.000000"))` under the default context
    (ROUND_HALF_EVEN) and rendered by `str`.

    A value is kept as a sign and a magnitude counted in millionths, so
    `Fixed6(false, 1500000)` is 1.5 and `Fixed6(true, 0)` is Decimal's
    negative zero, printed `-0.000000`. */
module Decimal6 {
  import opened Common

  /** Millionths per unit. */
  const Scale: nat := 1000000

  datatype Fixed6 = Fixed6(negative: bool, scaled: nat)

  /** The signed number of millionths. */
  function Millionths(x: Fixed6): int
  {
    if x.negative then -(x.scaled as int) else x.scaled
  }

  function Abs(v: int): nat
  {
    if v < 0 then -v else v
  }

  /** `q` is `n / d` rounded to the nearest integer, a tie going to the even
      neighbour. `2 * (q * d - n)` is twice the rounding error, scaled by `d`. */
  predicate IsHalfEven(q: int, n: int, d: int)
  {
    d > 0 &&
    var e := 2 * (q * d - n);
    (-d < e < d) || ((e == d || e == -d) && q % 2 == 0)
  }

  /** Integer half-even rounding of `n / d`. */
  function RoundHalfEven(n: nat, d: nat): (q: nat)
    requires d > 0
    ensures IsHalfEven(q, n, d)
  {
    var q0 := n / d;
    var r := n % d;
    assert q0 * d == n - r;
    if 2 * r < d then q0
    else if 2 * r > d then
      assert (q0 + 1) * d == q0 * d + d;
      q0 + 1
    else if q0 % 2 == 0 then q0
    else
      assert (q0 + 1) * d == q0 * d + d;
      q0 + 1
  }

  lemma MulBySign(k: int, d: int)
    requires d > 0
    ensures k >= 1 ==> k * d >= d
    ensures k <= -1 ==> k * d <= -d
    ensures k >= 2 ==> k * d >= 2 * d
    ensures k <= -2 ==> k * d <= -2 * d
  {
  }

  /** Half-even rounding has exactly one answer, so `RoundHalfEven` is the
      rounding, not merely a rounding. */
  lemma HalfEvenUnique(q1: int, q2: int, n: int, d: int)
    requires IsHalfEven(q1, n, d) && IsHalfEven(q2, n, d)
    ensures q1 == q2
  {
    if q1 != q2 {
      var k := q1 - q2;
      var e1 := 2 * (q1 * d - n);
      var e2 := 2 * (q2 * d - n);
      assert e1 - e2 == 2 * (k * d) by {
        assert q1 * d - q2 * d == (q1 - q2) * d;
      }
      MulBySign(k, d);
      assert false;
    }
  }

  /** `num / den` quantised to six decimals: the sign of the exact value and
      the half-even rounding of its magnitude in millionths. */
  function Quantize(num: int, den: nat): (r: Fixed6)
    requires den > 0
    ensures r.negative <==> num < 0
    ensures IsHalfEven(r.scaled, Abs(num) * Scale, den)
  {
    Fixed6(num < 0, RoundHalfEven(Abs(num) * Scale, den))
  }

  /** The quantised value is within half a millionth (5e-7) of `num / den`:
      `|q / 10^6 - num / den| <= 1 / (2 * 10^6)`, multiplied out. */
  lemma QuantizeWithinHalfMillionth(num: int, den: nat)
    requires den > 0
    ensures var q := Millionths(Quantize(num, den));
            -(den as int) <= 2 * (q * den - num * Scale) <= den
  {
    var r := Quantize(num, den);
    var m := r.scaled;
    var e := 2 * (m * den - Abs(num) * Scale);
    assert -(den as int) <= e <= den;
    if num < 0 {
      assert Millionths(r) * den == -(m * den);
      assert num * Scale == -(Abs(num) * Scale);
    }
  }

  /** A value of the unit interval quantises into the unit interval. */
  lemma QuantizeUnitInterval(num: int, den: nat)
    requires den > 0 && 0 <= num <= den
    ensures !Quantize(num, den).negative
    ensures Quantize(num, den).scaled <= Scale
  {
    var q := Quantize(num, den).scaled;
    MulMonotone(num, den, Scale);
    assert 2 * (q * den) <= den + 2 * (num * Scale);
    if q >= Scale + 1 {
      MulMonotone(Scale + 1, q, den);
      assert false;
    }
  }

  // ---- rendering ----------------------------------------------------

  predicate IsDigit(c: char)
  {
    '0' <= c <= '9'
  }

  predicate AllDigits(s: string)
  {
    forall i :: 0 <= i < |s| ==> IsDigit(s[i])
  }

  function DigitChar(v: nat): (c: char)
    requires v < 10
    ensures IsDigit(c)
  {
    "0123456789"[v]
  }

  function DigitValue(c: char): nat
    requires IsDigit(c)
  {
    c as int - '0' as int
  }

  lemma DigitCharValue(v: nat)
    requires v < 10
    ensures DigitValue(DigitChar(v)) == v
  {
  }

  /** The value of a string of decimal digits, most significant first. */
  function DigitsValue(s: string): nat
    requires AllDigits(s)
  {
    if |s| == 0 then 0
    else DigitsValue(s[..|s| - 1]) * 10 + DigitValue(s[|s| - 1])
  }

  /** `str(n)` for a non-negative integer: no leading zero except in "0". */
  function NatToString(n: nat): (s: string)
    ensures |s| > 0 && AllDigits(s)
    ensures s[0] == '0' <==> n == 0
    ensures s[0] == '0' ==> s == "0"
  {
    if n < 10 then [DigitChar(n)]
    else NatToString(n / 10) + [DigitChar(n % 10)]
  }

  function Pow10(k: nat): (p: nat)
    ensures p > 0
  {
    if k == 0 then 1 else 10 * Pow10(k - 1)
  }

  /** The last `k` decimal digits of `v`, zero-padded on the left. */
  function PadDigits(v: nat, k: nat): (s: string)
    ensures |s| == k && AllDigits(s)
  {
    if k == 0 then ""
    else PadDigits(v / 10, k - 1) + [DigitChar(v % 10)]
  }

  lemma {:induction false} NatToStringRoundTrip(n: nat)
    ensures DigitsValue(NatToString(n)) == n
  {
    var s := NatToString(n);
    DigitCharValue(n % 10);
    if n >= 10 {
      NatToStringRoundTrip(n / 10);
      assert s[..|s| - 1] == NatToString(n / 10);
    }
  }

  lemma {:induction false} PadDigitsRoundTrip(v: nat, k: nat)
    requires v < Pow10(k)
    ensures DigitsValue(PadDigits(v, k)) == v
  {
    if k > 0 {
      var s := PadDigits(v, k);
      DigitCharValue(v % 10);
      assert v / 10 < Pow10(k - 1);
      PadDigitsRoundTrip(v / 10, k - 1);
      assert s[..|s| - 1] == PadDigits(v / 10, k - 1);
    }
  }

  /** `str()` of a quantised Decimal: optional minus sign, the integer part,
      a point and exactly six fractional digits. */
  function FormatFixed6(x: Fixed6): (s: string)
    ensures |s| >= 8 && s[|s| - 7] == '.' && AllDigits(s[|s| - 6..])
    ensures (s[0] == '-') <==> x.negative
    ensures var k := if x.negative then 1 else 0;
            IsDigit(s[k]) && (s[k] != '0' || s[k + 1] == '.')
    ensures ' ' !in s && '\n' !in s
  {
    var sign := if x.negative then "-" else "";
    var s := sign + NatToString(x.scaled / Scale) + "." + PadDigits(x.scaled % Scale, 6);
    assert s[|s| - 6..] == PadDigits(x.scaled % Scale, 6);
    s
  }

  /** Reads back an unsigned `digits.dddddd`, in millionths. */
  function ParseMagnitude(body: string): Option<nat>
  {
    if |body| < 8 || body[|body| - 7] != '.' then None
    else
      var whole := body[..|body| - 7];
      var frac := body[|body| - 6..];
      if AllDigits(whole) && AllDigits(frac)
      then Some(DigitsValue(whole) * Scale + DigitsValue(frac))
      else None
  }

  /** Reads back a string shaped like `FormatFixed6`'s output. */
  function ParseFixed6(s: string): Option<Fixed6>
  {
    var negative := |s| > 0 && s[0] == '-';
    match ParseMagnitude(if negative then s[1..] else s)
    case None => None
    case Some(m) => Some(Fixed6(negative, m))
  }

  lemma Pow10Six()
    ensures Pow10(6) == Scale
  {
  }

  /** The layout of digits, a point and six digits. */
  lemma UnsignedLayout(whole: string, frac: string)
    requires |whole| > 0 && AllDigits(whole) && |frac| == 6 && AllDigits(frac)
    ensures var body := whole + "." + frac;
            |body| >= 8 && body[|body| - 7] == '.' && IsDigit(body[0]) &&
            body[..|body| - 7] == whole && body[|body| - 6..] == frac
  {
  }

  lemma ParseMagnitudeParts(whole: string, frac: string)
    requires |whole| > 0 && AllDigits(whole) && |frac| == 6 && AllDigits(frac)
    ensures ParseMagnitude(whole + "." + frac) == Some(DigitsValue(whole) * Scale + DigitsValue(frac))
  {
    var body := whole + "." + frac;
    assert body[..|body| - 7] == whole;
    assert body[|body| - 6..] == frac;
    assert body[|body| - 7] == '.';
  }

  /** Without a leading minus sign the whole text is the magnitude. */
  lemma ParsePlain(body: string)
    requires |body| > 0 && body[0] != '-' && ParseMagnitude(body).Some?
    ensures ParseFixed6(body) == Some(Fixed6(false, ParseMagnitude(body).value))
  {
  }

  /** A leading minus sign is stripped before the magnitude is read. */
  lemma ParseMinus(body: string)
    requires ParseMagnitude(body).Some?
    ensures ParseFixed6("-" + body) == Some(Fixed6(true, ParseMagnitude(body).value))
  {
    var s := "-" + body;
    assert s[0] == '-' && s[1..] == body;
  }

  /** The whole and fractional digits rendered for `v` millionths read back
      to `v`. */
  lemma MagnitudeDigits(v: nat)
    ensures DigitsValue(NatToString(v / Scale)) * Scale + DigitsValue(PadDigits(v % Scale, 6)) == v
  {
    NatToStringRoundTrip(v / Scale);
    Pow10Six();
    PadDigitsRoundTrip(v % Scale, 6);
  }

  lemma FormatNegativeRoundTrip(x: Fixed6)
    requires x.negative
    ensures ParseFixed6(FormatFixed6(x)) == Some(x)
  {
    var whole := NatToString(x.scaled / Scale);
    var frac := PadDigits(x.scaled % Scale, 6);
    var body := whole + "." + frac;
    MagnitudeDigits(x.scaled);
    ParseMagnitudeParts(whole, frac);
    assert FormatFixed6(x) == "-" + body;
    ParseMinus(body);
  }

  lemma FormatNonNegativeRoundTrip(x: Fixed6)
    requires !x.negative
    ensures ParseFixed6(FormatFixed6(x)) == Some(x)
  {
    var whole := NatToString(x.scaled / Scale);
    var frac := PadDigits(x.scaled % Scale, 6);
    var body := whole + "." + frac;
    MagnitudeDigits(x.scaled);
    ParseMagnitudeParts(whole, frac);
    assert FormatFixed6(x) == body;
    assert body[0] == whole[0] && IsDigit(whole[0]);
    ParsePlain(body);
  }

  /** The rendered text determines the value: parsing undoes rendering. */
  lemma FormatFixed6RoundTrip(x: Fixed6)
    ensures ParseFixed6(FormatFixed6(x)) == Some(x)
  {
    if x.negative {
      FormatNegativeRoundTrip(x);
    } else {
      FormatNonNegativeRoundTrip(x);
    }
  }

  /** A quantised value of the unit interval prints as `0.dddddd` or
      `1.000000`. */
  lemma FormatUnitInterval(x: Fixed6)
    requires !x.negative && x.scaled <= Scale
    ensures var s := FormatFixed6(x);
            |s| == 8 && (s[0] == '0' || s == "1.000000")
  {
    var whole := NatToString(x.scaled / Scale);
    var frac := PadDigits(x.scaled % Scale, 6);
    assert FormatFixed6(x) == whole + "." + frac;
    if x.scaled == Scale {
      assert whole == "1";
      assert frac == "000000";
    } else {
      assert whole == "0";
    }
  }

  /** `str(n)` for any integer: a minus sign only for negatives, and no
      leading zero except in "0". */
  function IntToString(v: int): (s: string)
    ensures |s| > 0 && ' ' !in s && '\n' !in s
    ensures (s[0] == '-') <==> v < 0
    ensures s[0] == '0' ==> s == "0"
    ensures s[0] == '-' ==> |s| > 1 && IsDigit(s[1]) && s[1] != '0'
  {
    if v < 0 then "-" + NatToString(-v) else NatToString(v)
  }

  function ParseInt(s: string): Option<int>
  {
    if |s| > 0 && s[0] == '-' then
      if |s| > 1 && AllDigits(s[1..]) then Some(-(DigitsValue(s[1..]) as int)) else None
    else if |s| > 0 && AllDigits(s) then Some(DigitsValue(s))
    else None
  }

  lemma ParseIntMinus(digits: string)
    requires |digits| > 0 && AllDigits(digits)
    ensures ParseInt("-" + digits) == Some(-(DigitsValue(digits) as int))
  {
    var s := "-" + digits;
    assert s[0] == '-' && s[1..] == digits;
  }

  lemma NegativeIntRoundTrip(v: int)
    requires v < 0
    ensures ParseInt(IntToString(v)) == Some(v)
  {
    var digits := NatToString(-v);
    NatToStringRoundTrip(-v);
    ParseIntMinus(digits);
  }

  lemma NonNegativeIntRoundTrip(v: int)
    requires v >= 0
    ensures ParseInt(IntToString(v)) == Some(v)
  {
    var s := NatToString(v);
    NatToStringRoundTrip(v);
    assert IsDigit(s[0]);
  }

  /** `int(str(n)) == n`. */
  lemma IntToStringRoundTrip(v: int)
    ensures ParseInt(IntToString(v)) == Some(v)
  {
    if v < 0 {
      NegativeIntRoundTrip(v);
    } else {
      NonNegativeIntRoundTrip(v);
    }
  }
}

=== FILE: draws.dfy ===
/** The unseeded per-placement randomness, as an oracle.

    The generator's draws (auto-fill indices, colour coins and channels,
    rotation angles, flip coins, placement coordinates) all come from one
    process-wide stream, consumed in program order. The model does not
    implement a generator: a `Stream` gives the raw value of every draw and a
    cursor `pos` says how many draws have been consumed so far. */
module Draws {
  import opened Common

  /** The raw value of the n-th draw. */
  type Stream = nat -> nat

  /** `random.randint(lo, hi)`: fails on an empty range without consuming a
      draw, otherwise consumes one draw and yields a value of the inclusive
      range `[lo, hi]`. */
  function RandInt(rng: Stream, pos: nat, lo: int, hi: int): (r: Result<(int, nat)>)
    ensures r.Err? <==> hi < lo
    ensures r.Err? ==> r.error == EmptyRange(lo, hi)
    ensures r.Ok? ==> lo <= r.value.0 <= hi && r.value.1 == pos + 1
  {
    if hi < lo then Err(EmptyRange(lo, hi))
    else Ok((lo + rng(pos) % (hi - lo + 1), pos + 1))
  }

  /** `random.random() > 0.5`: one draw, read as a fair coin. */
  function Coin(rng: Stream, pos: nat): (r: (bool, nat))
    ensures r.1 == pos + 1
  {
    (rng(pos) % 2 == 1, pos + 1)
  }

  /** The stream whose every draw is `c`. */
  function Constant(c: nat): Stream
  {
    n => c
  }

  /** Every value of a non-empty range is drawn by some stream, so the
      oracle does not narrow the behaviours `randint` can produce. */
  lemma RandIntReachesEveryValue(pos: nat, lo: int, hi: int, v: int)
    requires lo <= v <= hi
    ensures RandInt(Constant(v - lo), pos, lo, hi) == Ok((v, pos + 1))
  {
    var span := hi - lo + 1;
    assert (v - lo) % span == v - lo;
  }
}

=== FILE: engine.dfy ===
/** `Datasets.generate_by_yolo`: for every background, in order, place the
    icons of the current group, annotate them, and move the current group index on
    cyclically. */
module Engine {
  import opened Common
  import opened Draws
  import opened Decimal6
  import opened Yolo
  import opened Imaging
  import opened Grouping
  import opened Placement
  import opened ClassIndex

  /** What the model takes from outside: the content hash, the image decoder
      (`Image.open(...).convert("RGBA")`) and the library's rotation. */
  datatype Env = Env(digest: Digest, decode: seq<Byte> -> Image, rotate: (Image, int) -> Image)

  /** The keyword arguments of `generate_by_yolo`. */
  datatype Options = Options(padding: int, groupIconNum: int, autoFill: bool, imgEnhance: bool,
                             flags: AugmentFlags)

  /** A background image: only its size reaches the annotations. */
  datatype Background = Background(width: nat, height: nat)

  /** What one background produces: the index of the group shown, the boxes
      pasted in order and their annotations. */
  datatype Sample = Sample(groupIndex: nat, boxes: seq<Box>, annotations: seq<Annotation>)

  /** The text of the sample's `.txt` label file: one line per annotation. */
  function LabelFile(s: Sample): string
  {
    LabelText(s.annotations)
  }

  /** A run: the samples written, in order, and the error that ended it. The
      files of the backgrounds finished before an error stay written. */
  datatype Run = Run(written: seq<Sample>, failure: Option<Error>)

  /** Every file of the group has an entry in the index. */
  predicate Labelled(group: seq<File>, digest: Digest, index: map<string, int>)
  {
    forall j :: 0 <= j < |group| ==> digest(group[j].bytes) in index
  }

  /** What a rendered icon satisfies: its class id is the index entry of the
      file's hash and its annotation is the normalised box. */
  predicate IconRendered(env: Env, index: map<string, int>, bg: Background, file: File, box: Box, a: Annotation)
  {
    && env.digest(file.bytes) in index
    && a.classId == index[env.digest(file.bytes)]
    && Normalise(a.classId, box, bg.width, bg.height) == Ok(a)
  }

  /** The box lies in the columns of region `i` (of width `W div 3`) and
      between the padding and the bottom edge. */
  predicate InRegion(padding: int, bg: Background, i: nat, box: Box)
  {
    var rx := bg.width / 3;
    && padding + i * rx <= box.x <= (i + 1) * rx - box.w
    && padding <= box.y <= bg.height - box.h
  }

  /** The image pasted for `file` and the stream position after its draws:
      the decoded icon, augmented first when `img_enhance` is set. Only the
      rotation changes the size. */
  function Prepared(env: Env, opts: Options, file: File, rng: Stream, pos: nat): (r: (Image, nat))
    ensures !opts.imgEnhance || !opts.flags.randomRotate ==>
      r.0.width == env.decode(file.bytes).width && r.0.height == env.decode(file.bytes).height
    ensures !opts.imgEnhance ==> r.1 == pos
    ensures pos <= r.1 <= pos + 8
  {
    var icon := env.decode(file.bytes);
    if opts.imgEnhance then Augment(env.rotate, icon, opts.flags, rng, pos) else (icon, pos)
  }

  /** The box has the size of the pasted image when nothing rotated it. */
  predicate IconSized(env: Env, opts: Options, file: File, box: Box)
  {
    !opts.imgEnhance || !opts.flags.randomRotate ==>
      box.w == env.decode(file.bytes).width && box.h == env.decode(file.bytes).height
  }

  /** Where the icon at position `k` of the group went: inside region `k`,
      with the icon's size. */
  predicate Placed(env: Env, opts: Options, bg: Background, k: nat, file: File, box: Box)
  {
    InRegion(opts.padding, bg, k, box) && IconSized(env, opts, file, box)
  }

  /** One icon of the loop: decode, optionally augment, draw its place, and
      check what the annotation needs: a background with non-zero sides to
      divide by, and an index entry for the hash of the file's bytes (not of
      the augmented pixels). The annotation values draw nothing, so they are
      computed once the loop is done (`Annotate`); the errors and the draws
      are those of the program's loop body. */
  function DrawIcon(env: Env, opts: Options, index: map<string, int>, bg: Background,
                    i: nat, file: File, rng: Stream, pos: nat): (r: Result<(Box, nat)>)
    ensures r.Ok? ==> InRegion(opts.padding, bg, i, r.value.0) && r.value.1 >= pos + 2
    ensures r.Ok? ==> bg.width > 0 && bg.height > 0 && env.digest(file.bytes) in index
    ensures r.Ok? ==> var (im, p1) := Prepared(env, opts, file, rng, pos);
      r.value.0.w == im.width && r.value.0.h == im.height && r.value.1 == p1 + 2
    ensures r.Err? && r.error.UnknownIconHash? ==> env.digest(file.bytes) !in index
    ensures r.Err? ==> r.error.EmptyRange? || r.error.ZeroDivision? || r.error.UnknownIconHash?
    ensures var (im, p1) := Prepared(env, opts, file, rng, pos);
      r.Ok? <==> PlaceIcon(i, im.width, im.height, bg.width, bg.height, opts.padding, rng, p1).Ok?
                 && bg.width > 0 && bg.height > 0 && env.digest(file.bytes) in index
  {
    var (im, p1) := Prepared(env, opts, file, rng, pos);
    var placed :- PlaceIcon(i, im.width, im.height, bg.width, bg.height, opts.padding, rng, p1);
    if bg.width == 0 || bg.height == 0 then Err(ZeroDivision)
    else
      var hash := env.digest(file.bytes);
      if hash !in index then Err(UnknownIconHash(hash))
      else Ok(placed)
  }

  /** The loop over `enumerate(group)` from position `i` on, `boxes` holding
      the places of the icons before `i`. When it completes, every later
      file is indexed and, if there was an icon, the background has non-zero
      sides. */
  function PlaceFrom(env: Env, opts: Options, index: map<string, int>, bg: Background, group: seq<File>,
                     i: nat, boxes: seq<Box>, rng: Stream, pos: nat): (r: Result<(seq<Box>, nat)>)
    requires i <= |group| && |boxes| == i
    ensures r.Ok? ==> |r.value.0| == |group|
    ensures r.Ok? ==> forall j :: i <= j < |group| ==> env.digest(group[j].bytes) in index
    ensures r.Ok? && i < |group| ==> bg.width > 0 && bg.height > 0
    decreases |group| - i
  {
    if i == |group| then Ok((boxes, pos))
    else
      var icon := DrawIcon(env, opts, index, bg, i, group[i], rng, pos);
      if icon.Err? then Err(icon.error)
      else PlaceFrom(env, opts, index, bg, group, i + 1, boxes + [icon.value.0], rng, icon.value.1)
  }

  /** The annotation of every icon: the class id of its file's hash and its
      box normalised by the background's size. */
  function Annotate(env: Env, index: map<string, int>, bg: Background, group: seq<File>, boxes: seq<Box>)
    : (anns: seq<Annotation>)
    requires |boxes| == |group| && Labelled(group, env.digest, index)
    requires |group| > 0 ==> bg.width > 0 && bg.height > 0
    ensures |anns| == |group|
  {
    if |group| == 0 then []
    else
      assert Labelled(group[1..], env.digest, index) by {
        assert forall j :: 0 <= j < |group| - 1 ==> group[1..][j] == group[j + 1];
      }
      [Normalise(index[env.digest(group[0].bytes)], boxes[0], bg.width, bg.height).value]
        + Annotate(env, index, bg, group[1..], boxes[1..])
  }

  /** The icons of a group in order: their boxes, their annotations, and the
      position in the stream after their draws. */
  function RenderGroup(env: Env, opts: Options, index: map<string, int>, bg: Background,
                       group: seq<File>, rng: Stream, pos: nat): (r: Result<(seq<Box>, seq<Annotation>, nat)>)
    ensures r.Ok? ==> |r.value.0| == |group| && |r.value.1| == |group|
  {
    var placed :- PlaceFrom(env, opts, index, bg, group, 0, [], rng, pos);
    Ok((placed.0, Annotate(env, index, bg, group, placed.0), placed.1))
  }

  /** Icon `k` was rendered from `group[k]` in region `k`. */
  predicate RenderedAt(env: Env, opts: Options, index: map<string, int>, bg: Background, group: seq<File>,
                       boxes: seq<Box>, anns: seq<Annotation>, k: nat)
    requires k < |group| && k < |boxes| && k < |anns|
  {
    IconRendered(env, index, bg, group[k], boxes[k], anns[k]) && Placed(env, opts, bg, k, group[k], boxes[k])
  }

  /** Box `k` keeps its region and size while the loop goes on, or gets
      them when the loop reaches it. */
  lemma {:induction false} PlaceFromInRegion(env: Env, opts: Options, index: map<string, int>, bg: Background,
                                             group: seq<File>, i: nat, boxes: seq<Box>, rng: Stream, pos: nat,
                                             k: nat)
    requires i <= |group| && |boxes| == i && k < |group|
    requires k < i ==> Placed(env, opts, bg, k, group[k], boxes[k])
    ensures var r := PlaceFrom(env, opts, index, bg, group, i, boxes, rng, pos);
            r.Ok? ==> Placed(env, opts, bg, k, group[k], r.value.0[k])
    decreases |group| - i
  {
    if i < |group| {
      var icon := DrawIcon(env, opts, index, bg, i, group[i], rng, pos);
      if icon.Ok? {
        var boxes' := boxes + [icon.value.0];
        if k <= i {
          assert boxes'[k] == if k < i then boxes[k] else icon.value.0;
        }
        PlaceFromInRegion(env, opts, index, bg, group, i + 1, boxes', rng, icon.value.1, k);
      }
    }
  }

  /** Annotation `k` is the one of `group[k]` placed at `boxes[k]`. */
  lemma {:induction false} AnnotateAt(env: Env, index: map<string, int>, bg: Background, group: seq<File>,
                                      boxes: seq<Box>, k: nat)
    requires |boxes| == |group| && Labelled(group, env.digest, index)
    requires |group| > 0 ==> bg.width > 0 && bg.height > 0
    requires k < |group|
    ensures IconRendered(env, index, bg, group[k], boxes[k], Annotate(env, index, bg, group, boxes)[k])
    decreases k
  {
    if k > 0 {
      assert Labelled(group[1..], env.digest, index) by {
        assert forall j :: 0 <= j < |group| - 1 ==> group[1..][j] == group[j + 1];
      }
      AnnotateAt(env, index, bg, group[1..], boxes[1..], k - 1);
      assert group[1..][k - 1] == group[k] && boxes[1..][k - 1] == boxes[k];
    }
  }

  /** Box `k` and annotation `k` belong to `group[k]`: the annotation carries
      the class id of the file's hash and is the normalised box, and the box
      lies in region `k`. */
  lemma RenderGroupRendersEach(env: Env, opts: Options, index: map<string, int>,
                               bg: Background, group: seq<File>, rng: Stream, pos: nat)
    ensures var r := RenderGroup(env, opts, index, bg, group, rng, pos);
            r.Ok? ==> forall k :: 0 <= k < |group| ==> RenderedAt(env, opts, index, bg, group, r.value.0, r.value.1, k)
  {
    var placed := PlaceFrom(env, opts, index, bg, group, 0, [], rng, pos);
    if placed.Ok? {
      var boxes := placed.value.0;
      forall k | 0 <= k < |group|
        ensures RenderedAt(env, opts, index, bg, group, boxes, Annotate(env, index, bg, group, boxes), k)
      {
        PlaceFromInRegion(env, opts, index, bg, group, 0, [], rng, pos, k);
        AnnotateAt(env, index, bg, group, boxes, k);
      }
    }
  }

  lemma {:induction false} PlaceFromFindsIndexed(env: Env, opts: Options, index: map<string, int>, bg: Background,
                                                 group: seq<File>, i: nat, boxes: seq<Box>, rng: Stream, pos: nat)
    requires i <= |group| && |boxes| == i
    requires Labelled(group, env.digest, index)
    ensures var r := PlaceFrom(env, opts, index, bg, group, i, boxes, rng, pos);
            r.Err? ==> !r.error.UnknownIconHash?
    decreases |group| - i
  {
    if i < |group| {
      var icon := DrawIcon(env, opts, index, bg, i, group[i], rng, pos);
      if icon.Ok? {
        PlaceFromFindsIndexed(env, opts, index, bg, group, i + 1, boxes + [icon.value.0], rng, icon.value.1);
      }
    }
  }

  /** A group whose files are all indexed never fails on a missing hash. */
  lemma RenderGroupFindsIndexed(env: Env, opts: Options, index: map<string, int>,
                                bg: Background, group: seq<File>, rng: Stream, pos: nat)
    requires Labelled(group, env.digest, index)
    ensures var r := RenderGroup(env, opts, index, bg, group, rng, pos);
            r.Err? ==> !r.error.UnknownIconHash?
  {
    PlaceFromFindsIndexed(env, opts, index, bg, group, 0, [], rng, pos);
  }

  /** A sample shows one of the groups: one box and one annotation per icon
      of that group. */
  predicate Shows(groups: seq<seq<File>>, s: Sample)
  {
    && s.groupIndex < |groups|
    && |s.annotations| == |groups[s.groupIndex]| && |s.boxes| == |groups[s.groupIndex]|
  }

  /** One background showing `groups[cur]`: the boxes, annotations and label
      text it writes. */
  function RenderBackground(env: Env, opts: Options, index: map<string, int>, groups: seq<seq<File>>,
                            cur: nat, bg: Background, rng: Stream, pos: nat): (r: Result<(Sample, nat)>)
    requires cur < |groups|
    ensures r.Ok? ==> r.value.0.groupIndex == cur && Shows(groups, r.value.0)
  {
    var out :- RenderGroup(env, opts, index, bg, groups[cur], rng, pos);
    Ok((Sample(cur, out.0, out.1), out.2))
  }

  /** The boxes and annotations of a background are those of its group's
      icons, in the order of the group, each box in the region of its
      position. */
  lemma BackgroundAnnotatesGroup(env: Env, opts: Options, index: map<string, int>, groups: seq<seq<File>>,
                                 cur: nat, bg: Background, rng: Stream, pos: nat)
    requires cur < |groups|
    ensures var r := RenderBackground(env, opts, index, groups, cur, bg, rng, pos);
            r.Ok? ==> forall k :: 0 <= k < |groups[cur]| ==>
              RenderedAt(env, opts, index, bg, groups[cur], r.value.0.boxes, r.value.0.annotations, k)
  {
    var r := RenderBackground(env, opts, index, groups, cur, bg, rng, pos);
    if r.Ok? {
      var out := RenderGroup(env, opts, index, bg, groups[cur], rng, pos);
      assert out.Ok? && r.value.0.boxes == out.value.0 && r.value.0.annotations == out.value.1;
      RenderGroupRendersEach(env, opts, index, bg, groups[cur], rng, pos);
    }
  }

  /** Every group has all its files in the index. */
  predicate AllLabelled(groups: seq<seq<File>>, digest: Digest, index: map<string, int>)
  {
    forall k :: 0 <= k < |groups| ==> Labelled(groups[k], digest, index)
  }

  /** The current index after `cur`: one on, back to the first group after the last. */
  function Advance(cur: nat, groupCount: nat): (r: nat)
    ensures groupCount > 0 ==> r < groupCount
    ensures r == 0 || r == cur + 1
  {
    if cur + 1 >= groupCount then 0 else cur + 1
  }

  /** The background loop from background `bgs[0]` on, with the current group
      at `cur`. */
  function RunFrom(env: Env, opts: Options, index: map<string, int>, groups: seq<seq<File>>,
                   bgs: seq<Background>, cur: nat, rng: Stream, pos: nat): (r: Run)
    ensures |r.written| <= |bgs|
    ensures r.failure.None? <==> |r.written| == |bgs|
    decreases |bgs|
  {
    if |bgs| == 0 then Run([], None)
    else if cur >= |groups| then Run([], Some(IndexOutOfRange(cur, |groups|)))
    else
      match RenderBackground(env, opts, index, groups, cur, bgs[0], rng, pos)
      case Err(e) => Run([], Some(e))
      case Ok((s, p)) =>
        var next := Advance(cur, |groups|);
        var rest := RunFrom(env, opts, index, groups, bgs[1..], next, rng, p);
        Run([s] + rest.written, rest.failure)
  }

  /** The samples, in order, show the groups the current index visits from
      `cur` on, each with one box and one annotation per icon. */
  predicate CyclesFrom(groups: seq<seq<File>>, cur: nat, written: seq<Sample>)
    decreases |written|
  {
    |written| == 0 ||
      (written[0].groupIndex == cur && Shows(groups, written[0])
       && CyclesFrom(groups, Advance(cur, |groups|), written[1..]))
  }

  /** Sample `k` shows the group `k` advances from `cur` land on. */
  lemma {:induction false} CyclesFromAt(groups: seq<seq<File>>, cur: nat, written: seq<Sample>, k: nat)
    requires CyclesFrom(groups, cur, written) && k < |written|
    ensures written[k].groupIndex == Cycle(cur, k, |groups|) && Shows(groups, written[k])
    decreases k
  {
    if k > 0 {
      CyclesFromAt(groups, Advance(cur, |groups|), written[1..], k - 1);
      assert written[1..][k - 1] == written[k];
    }
  }

  /** The samples of a run started at `cur` show the groups the current
      index visits, one advance per background. */
  lemma {:induction false} RunFromCycles(env: Env, opts: Options, index: map<string, int>,
                                         groups: seq<seq<File>>, bgs: seq<Background>, cur: nat,
                                         rng: Stream, pos: nat)
    ensures CyclesFrom(groups, cur, RunFrom(env, opts, index, groups, bgs, cur, rng, pos).written)
    decreases |bgs|
  {
    if |bgs| > 0 && cur < |groups| {
      var out := RenderBackground(env, opts, index, groups, cur, bgs[0], rng, pos);
      if out.Ok? {
        var next := Advance(cur, |groups|);
        var rest := RunFrom(env, opts, index, groups, bgs[1..], next, rng, out.value.1);
        RunFromCycles(env, opts, index, groups, bgs[1..], next, rng, out.value.1);
        var written := RunFrom(env, opts, index, groups, bgs, cur, rng, pos).written;
        assert written == [out.value.0] + rest.written;
        assert written[1..] == rest.written;
      }
    }
  }

  /** Every icon of the sample's group was rendered on `bg`: its box lies in
      its region and its annotation is its class id with the normalised box. */
  predicate SampleRendered(env: Env, opts: Options, index: map<string, int>, groups: seq<seq<File>>,
                           bg: Background, s: Sample)
    requires Shows(groups, s)
  {
    forall j :: 0 <= j < |groups[s.groupIndex]| ==>
      RenderedAt(env, opts, index, bg, groups[s.groupIndex], s.boxes, s.annotations, j)
  }

  /** The samples were rendered on the backgrounds, one each, in order. */
  predicate RendersFrom(env: Env, opts: Options, index: map<string, int>, groups: seq<seq<File>>,
                        bgs: seq<Background>, written: seq<Sample>)
    decreases |written|
  {
    |written| == 0 ||
      (|bgs| > 0 && Shows(groups, written[0])
       && SampleRendered(env, opts, index, groups, bgs[0], written[0])
       && RendersFrom(env, opts, index, groups, bgs[1..], written[1..]))
  }

  /** Sample `k` was rendered on background `k`. */
  lemma {:induction false} RendersFromAt(env: Env, opts: Options, index: map<string, int>, groups: seq<seq<File>>,
                                         bgs: seq<Background>, written: seq<Sample>, k: nat)
    requires RendersFrom(env, opts, index, groups, bgs, written) && k < |written|
    ensures k < |bgs| && Shows(groups, written[k])
    ensures SampleRendered(env, opts, index, groups, bgs[k], written[k])
    decreases k
  {
    if k > 0 {
      RendersFromAt(env, opts, index, groups, bgs[1..], written[1..], k - 1);
      assert written[1..][k - 1] == written[k] && bgs[1..][k - 1] == bgs[k];
    }
  }

  /** Each sample of a run holds the rendering of its own background: every
      icon of its group has its class id, its normalised box and its region. */
  lemma {:induction false} RunFromRenders(env: Env, opts: Options, index: map<string, int>,
                                          groups: seq<seq<File>>, bgs: seq<Background>, cur: nat,
                                          rng: Stream, pos: nat)
    ensures RendersFrom(env, opts, index, groups, bgs, RunFrom(env, opts, index, groups, bgs, cur, rng, pos).written)
    decreases |bgs|
  {
    if |bgs| > 0 && cur < |groups| {
      var out := RenderBackground(env, opts, index, groups, cur, bgs[0], rng, pos);
      if out.Ok? {
        BackgroundAnnotatesGroup(env, opts, index, groups, cur, bgs[0], rng, pos);
        var next := Advance(cur, |groups|);
        var rest := RunFrom(env, opts, index, groups, bgs[1..], next, rng, out.value.1);
        RunFromRenders(env, opts, index, groups, bgs[1..], next, rng, out.value.1);
        var written := RunFrom(env, opts, index, groups, bgs, cur, rng, pos).written;
        assert written == [out.value.0] + rest.written;
        assert written[0] == out.value.0 && written[1..] == rest.written;
        assert SampleRendered(env, opts, index, groups, bgs[0], written[0]);
      }
    }
  }

  /** When every icon of every group is indexed, a run never stops on a
      missing hash. */
  lemma {:induction false} RunFromFindsIndexedIcons(env: Env, opts: Options, index: map<string, int>,
                                                    groups: seq<seq<File>>, bgs: seq<Background>, cur: nat,
                                                    rng: Stream, pos: nat)
    requires AllLabelled(groups, env.digest, index)
    ensures var r := RunFrom(env, opts, index, groups, bgs, cur, rng, pos);
            r.failure.Some? ==> !r.failure.value.UnknownIconHash?
    decreases |bgs|
  {
    if |bgs| > 0 && cur < |groups| {
      RenderGroupFindsIndexed(env, opts, index, bgs[0], groups[cur], rng, pos);
      var out := RenderBackground(env, opts, index, groups, cur, bgs[0], rng, pos);
      if out.Ok? {
        RunFromFindsIndexedIcons(env, opts, index, groups, bgs[1..], Advance(cur, |groups|), rng, out.value.1);
      }
    }
  }

  /** The current index after `k` advances from `cur`. */
  function Cycle(cur: nat, k: nat, groupCount: nat): nat
    decreases k
  {
    if k == 0 then cur else Cycle(Advance(cur, groupCount), k - 1, groupCount)
  }

  /** Starting inside the list, `k` advances land on `(cur + k) mod n`. */
  lemma {:induction false} CycleIsModular(cur: nat, k: nat, n: nat)
    requires cur < n
    ensures Cycle(cur, k, n) == (cur + k) % n
    decreases k
  {
    if k > 0 {
      CycleIsModular(Advance(cur, n), k - 1, n);
      if cur + 1 >= n {
        ModShift(k - 1, n);
      }
    }
  }

  lemma CycleFromFirst(k: nat, n: nat)
    requires n > 0
    ensures Cycle(0, k, n) == k % n
  {
    CycleIsModular(0, k, n);
  }

  lemma ModShift(a: nat, n: nat)
    requires n > 0
    ensures (a + n) % n == a % n
  {
    var q, r := a / n, a % n;
    assert a == q * n + r && 0 <= r < n;
    assert a + n == (q + 1) * n + r;
    ModUnique(a + n, q + 1, r, n);
  }

  /** Euclidean division is unique: `a = q n + r` with `r < n` fixes `r`. */
  lemma ModUnique(a: nat, q: nat, r: nat, n: nat)
    requires n > 0 && a == q * n + r && r < n
    ensures a % n == r
  {
    var q', r' := a / n, a % n;
    assert a == q' * n + r';
    if q' < q {
      MulStep(q', q, n);
    } else if q < q' {
      MulStep(q, q', n);
    }
  }

  /** `q1 < q2` puts at least `n` between `q1 n` and `q2 n`. */
  lemma MulStep(q1: nat, q2: nat, n: nat)
    requires q1 < q2
    ensures q1 * n + n <= q2 * n
  {
    var d := q2 - q1;
    assert q2 * n == q1 * n + d * n;
    MulMonotone(1, d, n);
  }

  /** `generate_by_yolo` over the shuffled backgrounds and icons. Draws are
      consumed from position 0 of the stream: first the fill, then each
      background's icons in order. */
  function Generate(env: Env, opts: Options, index: map<string, int>, bgs: seq<Background>,
                    icons: seq<File>, rng: Stream): (r: Run)
    ensures opts.groupIconNum == 0 ==> r == Run([], Some(ZeroStep))
    ensures |r.written| <= |bgs|
    ensures r.failure.None? ==> |r.written| == |bgs|
  {
    var prepared := PrepareGroups(icons, opts.groupIconNum, opts.autoFill, rng, 0);
    if prepared.Err? then Run([], Some(prepared.error))
    else RunFrom(env, opts, index, prepared.value.0, bgs, 0, rng, prepared.value.1)
  }

  lemma GenerateRunsPreparedGroups(env: Env, opts: Options, index: map<string, int>,
                                   bgs: seq<Background>, icons: seq<File>, rng: Stream)
    requires PrepareGroups(icons, opts.groupIconNum, opts.autoFill, rng, 0).Ok?
    ensures var prep := PrepareGroups(icons, opts.groupIconNum, opts.autoFill, rng, 0).value;
            Generate(env, opts, index, bgs, icons, rng) == RunFrom(env, opts, index, prep.0, bgs, 0, rng, prep.1)
  {
  }

  /** Background `k` shows group `k mod (number of groups)`. */
  lemma GenerateCyclesThroughGroups(env: Env, opts: Options, index: map<string, int>,
                                    bgs: seq<Background>, icons: seq<File>, rng: Stream)
    requires PrepareGroups(icons, opts.groupIconNum, opts.autoFill, rng, 0).Ok?
    ensures var groups := PrepareGroups(icons, opts.groupIconNum, opts.autoFill, rng, 0).value.0;
            var r := Generate(env, opts, index, bgs, icons, rng);
            forall k :: 0 <= k < |r.written| ==> r.written[k].groupIndex == k % |groups|
  {
    var prep := PrepareGroups(icons, opts.groupIconNum, opts.autoFill, rng, 0).value;
    var groups := prep.0;
    var r := RunFrom(env, opts, index, groups, bgs, 0, rng, prep.1);
    GenerateRunsPreparedGroups(env, opts, index, bgs, icons, rng);
    RunFromCycles(env, opts, index, groups, bgs, 0, rng, prep.1);
    forall k | 0 <= k < |r.written|
      ensures r.written[k].groupIndex == k % |groups|
    {
      CyclesFromAt(groups, 0, r.written, k);
      CycleFromFirst(k, |groups|);
    }
  }

  /** Every sample written shows one of the groups: one annotation per icon,
      and a label file that reads back to those annotations. */
  lemma GenerateWritesFaithfulLabels(env: Env, opts: Options, index: map<string, int>,
                                     bgs: seq<Background>, icons: seq<File>, rng: Stream)
    requires PrepareGroups(icons, opts.groupIconNum, opts.autoFill, rng, 0).Ok?
    ensures var groups := PrepareGroups(icons, opts.groupIconNum, opts.autoFill, rng, 0).value.0;
            var r := Generate(env, opts, index, bgs, icons, rng);
            forall k :: 0 <= k < |r.written| ==>
              Shows(groups, r.written[k]) && ParseLabel(LabelFile(r.written[k])) == Some(r.written[k].annotations)
  {
    var prep := PrepareGroups(icons, opts.groupIconNum, opts.autoFill, rng, 0).value;
    var r := RunFrom(env, opts, index, prep.0, bgs, 0, rng, prep.1);
    GenerateRunsPreparedGroups(env, opts, index, bgs, icons, rng);
    RunFromCycles(env, opts, index, prep.0, bgs, 0, rng, prep.1);
    forall k | 0 <= k < |r.written|
      ensures Shows(prep.0, r.written[k]) && ParseLabel(LabelFile(r.written[k])) == Some(r.written[k].annotations)
    {
      CyclesFromAt(prep.0, 0, r.written, k);
      LabelRoundTrip(r.written[k].annotations);
    }
  }

  /** Background `k` shows group `k mod (number of groups)`, and every icon
      of that group was rendered on background `k`: its box lies in its
      region and its annotation is its class id with the normalised box. */
  lemma GenerateRendersEachBackground(env: Env, opts: Options, index: map<string, int>,
                                      bgs: seq<Background>, icons: seq<File>, rng: Stream)
    requires PrepareGroups(icons, opts.groupIconNum, opts.autoFill, rng, 0).Ok?
    ensures var groups := PrepareGroups(icons, opts.groupIconNum, opts.autoFill, rng, 0).value.0;
            var r := Generate(env, opts, index, bgs, icons, rng);
            forall k :: 0 <= k < |r.written| ==>
              && k < |bgs| && r.written[k].groupIndex == k % |groups| && Shows(groups, r.written[k])
              && SampleRendered(env, opts, index, groups, bgs[k], r.written[k])
  {
    var prep := PrepareGroups(icons, opts.groupIconNum, opts.autoFill, rng, 0).value;
    var r := RunFrom(env, opts, index, prep.0, bgs, 0, rng, prep.1);
    GenerateRunsPreparedGroups(env, opts, index, bgs, icons, rng);
    RunFromCycles(env, opts, index, prep.0, bgs, 0, rng, prep.1);
    RunFromRenders(env, opts, index, prep.0, bgs, 0, rng, prep.1);
    forall k | 0 <= k < |r.written|
      ensures && k < |bgs| && r.written[k].groupIndex == k % |prep.0| && Shows(prep.0, r.written[k])
              && SampleRendered(env, opts, index, prep.0, bgs[k], r.written[k])
    {
      CyclesFromAt(prep.0, 0, r.written, k);
      CycleFromFirst(k, |prep.0|);
      RendersFromAt(env, opts, index, prep.0, bgs, r.written, k);
    }
  }

  /** With the index built from the directory the icons were listed from, and
      the same hash, no icon the generator draws is missing from the index. */
  lemma IndexFromIconDirectoryCoversIcons(env: Env, opts: Options, listing: seq<File>,
                                          index: map<string, int>, bgs: seq<Background>,
                                          icons: seq<File>, rng: Stream)
    requires BuildIndex(Classes, env.digest, listing) == Ok(index)
    requires forall j :: 0 <= j < |icons| ==> icons[j] in PngFiles(listing)
    ensures var r := Generate(env, opts, index, bgs, icons, rng);
            r.failure.Some? ==> !r.failure.value.UnknownIconHash?
  {
    var prep := PrepareGroups(icons, opts.groupIconNum, opts.autoFill, rng, 0);
    if prep.Ok? {
      var groups: seq<seq<File>> := prep.value.0;
      PreparedIconsComeFromList(icons, opts.groupIconNum, opts.autoFill, rng, 0);
      var png := PngFiles(listing);
      BuildFromKeys(Classes, env.digest, png);
      forall k, j | 0 <= k < |groups| && 0 <= j < |groups[k]|
        ensures env.digest(groups[k][j].bytes) in index
      {
        var f: File := groups[k][j];
        assert f in png;
        var i :| 0 <= i < |png| && png[i] == f;
        assert env.digest(png[i].bytes) in index.Keys;
      }
      assert AllLabelled(groups, env.digest, index);
      RunFromFindsIndexedIcons(env, opts, index, groups, bgs, 0, rng, prep.value.1);
    }
  }

  /** Icons fit: with the padding, in a third of the width and in the height. */
  predicate IconsFit(env: Env, opts: Options, bg: Background, group: seq<File>)
  {
    forall j :: 0 <= j < |group| ==>
      opts.padding + env.decode(group[j].bytes).width <= bg.width / 3 &&
      opts.padding + env.decode(group[j].bytes).height <= bg.height
  }

  lemma {:induction false} PlaceFromSucceeds(env: Env, opts: Options, index: map<string, int>, bg: Background,
                                             group: seq<File>, i: nat, boxes: seq<Box>, rng: Stream, pos: nat)
    requires i <= |group| && |boxes| == i
    requires (!opts.imgEnhance || !opts.flags.randomRotate) && bg.width > 0 && bg.height > 0
    requires Labelled(group, env.digest, index) && IconsFit(env, opts, bg, group)
    ensures PlaceFrom(env, opts, index, bg, group, i, boxes, rng, pos).Ok?
    decreases |group| - i
  {
    if i < |group| {
      var rx := bg.width / 3;
      assert (i + 1) * rx == i * rx + rx;
      var icon := DrawIcon(env, opts, index, bg, i, group[i], rng, pos);
      assert icon.Ok?;
      PlaceFromSucceeds(env, opts, index, bg, group, i + 1, boxes + [icon.value.0], rng, icon.value.1);
    }
  }

  /** Unless a rotation may change the icons' sizes, a group renders when
      the background is non-empty, every hash is indexed and each icon fits, with the padding,
      in a third of the width and in the height. */
  lemma RenderGroupSucceeds(env: Env, opts: Options, index: map<string, int>,
                            bg: Background, group: seq<File>, rng: Stream, pos: nat)
    requires (!opts.imgEnhance || !opts.flags.randomRotate) && bg.width > 0 && bg.height > 0
    requires Labelled(group, env.digest, index) && IconsFit(env, opts, bg, group)
    ensures RenderGroup(env, opts, index, bg, group, rng, pos).Ok?
  {
    PlaceFromSucceeds(env, opts, index, bg, group, 0, [], rng, pos);
  }

  /** With a non-negative padding, boxes placed in consecutive regions
      follow each other left to right without overlapping. */
  lemma RegionBoxesDoNotOverlap(padding: int, bg: Background, boxes: seq<Box>, k: nat, j: nat)
    requires padding >= 0 && k < j < |boxes|
    requires InRegion(padding, bg, k, boxes[k]) && InRegion(padding, bg, j, boxes[j])
    ensures boxes[k].x + boxes[k].w <= boxes[j].x
  {
    MulMonotone(k + 1, j, bg.width / 3);
  }

  /** Every background of the run is written when no rotation may change the
      icons' sizes, every background is non-empty and large enough for every
      icon, and every icon's hash is indexed. */
  lemma {:induction false} RunFromSucceeds(env: Env, opts: Options, index: map<string, int>,
                                           groups: seq<seq<File>>, bgs: seq<Background>, cur: nat,
                                           rng: Stream, pos: nat)
    requires (!opts.imgEnhance || !opts.flags.randomRotate) && cur < |groups|
    requires AllLabelled(groups, env.digest, index)
    requires forall b :: b in bgs ==> b.width > 0 && b.height > 0
    requires forall b, k, j :: b in bgs && 0 <= k < |groups| && 0 <= j < |groups[k]| ==>
      opts.padding + env.decode(groups[k][j].bytes).width <= b.width / 3 &&
      opts.padding + env.decode(groups[k][j].bytes).height <= b.height
    ensures RunFrom(env, opts, index, groups, bgs, cur, rng, pos).failure.None?
    decreases |bgs|
  {
    if |bgs| > 0 {
      var bg := bgs[0];
      assert IconsFit(env, opts, bg, groups[cur]);
      RenderGroupSucceeds(env, opts, index, bg, groups[cur], rng, pos);
      var p := RenderBackground(env, opts, index, groups, cur, bg, rng, pos).value.1;
      assert forall b :: b in bgs[1..] ==> b in bgs;
      RunFromSucceeds(env, opts, index, groups, bgs[1..], Advance(cur, |groups|), rng, p);
    }
  }
}

=== FILE: grouping.dfy ===
/** Icon groups: the shuffled icon list cut into consecutive chunks of
    `group_icon_num`, and the optional random fill of the last chunk. */
module Grouping {
  import opened Common
  import opened Draws

  function Concat<T>(groups: seq<seq<T>>): seq<T>
  {
    if |groups| == 0 then [] else groups[0] + Concat(groups[1..])
  }

  function Max0(v: int): nat
  {
    if v < 0 then 0 else v
  }

  function Min(a: int, b: int): int
  {
    if a < b then a else b
  }

  /** `[items[i : i + g] for i in range(0, len(items), g)]` for a positive `g`. */
  function ChunksOf<T>(items: seq<T>, g: nat): (r: seq<seq<T>>)
    requires g > 0
    ensures |r| == 0 <==> |items| == 0
    ensures |items| > 0 ==> 0 < |r[0]| <= g && |r[0]| <= |items| && r[0] == items[..|r[0]|]
    decreases |items|
  {
    if |items| == 0 then []
    else if |items| <= g then [items]
    else [items[..g]] + ChunksOf(items[g..], g)
  }

  /** Joining the chunks gives back the list; every chunk is non-empty and
      holds at most `g` icons, and all but the last exactly `g`. */
  lemma {:induction false} ChunksPartition<T>(items: seq<T>, g: nat)
    requires g > 0
    ensures Concat(ChunksOf(items, g)) == items
    ensures forall k :: 0 <= k < |ChunksOf(items, g)| ==> 0 < |ChunksOf(items, g)[k]| <= g
    ensures forall k :: 0 <= k < |ChunksOf(items, g)| - 1 ==> |ChunksOf(items, g)[k]| == g
    decreases |items|
  {
    var groups := ChunksOf(items, g);
    if |items| == 0 {
    } else if |items| <= g {
      assert Concat([items]) == items + Concat([]);
    } else {
      var rest := ChunksOf(items[g..], g);
      ChunksPartition(items[g..], g);
      assert groups == [items[..g]] + rest;
      assert groups[1..] == rest;
      assert items[..g] + items[g..] == items;
    }
  }

  lemma MulSucc(k: int, g: int)
    ensures (k + 1) * g == k * g + g
  {
  }

  /** Chunk `k` is the slice starting at `k * g`, as the comprehension
      builds it. */
  lemma {:induction false} ChunkSlices<T>(items: seq<T>, g: nat, k: nat)
    requires g > 0 && k < |ChunksOf(items, g)|
    ensures k * g < |items|
    ensures ChunksOf(items, g)[k] == items[k * g .. Min((k + 1) * g, |items|)]
    decreases |items|
  {
    var n := |items|;
    MulSucc(k, g);
    if k == 0 {
      if n <= g {
        assert ChunksOf(items, g) == [items];
        assert items[0..n] == items;
      } else {
        assert ChunksOf(items, g)[0] == items[..g];
      }
    } else {
      assert n > g;
      var tail := items[g..];
      var rest := ChunksOf(tail, g);
      assert ChunksOf(items, g) == [items[..g]] + rest;
      assert ChunksOf(items, g)[k] == rest[k - 1];
      ChunkSlices(tail, g, k - 1);
      var lo := (k - 1) * g;
      var hi := Min(k * g, n - g);
      ShiftBounds(k, g, n);
      assert rest[k - 1] == tail[lo..hi];
      SliceOfSuffix(items, g, lo, hi);
      assert lo + g == k * g && hi + g == Min((k + 1) * g, n);
    }
  }

  /** Moving one chunk to the right shifts both ends of the slice by `g`. */
  lemma ShiftBounds(k: nat, g: nat, n: nat)
    requires k > 0 && n > g
    ensures (k - 1) * g + g == k * g
    ensures Min(k * g, n - g) + g == Min((k + 1) * g, n)
  {
    MulSucc(k - 1, g);
    MulSucc(k, g);
  }

  lemma SliceOfSuffix<T>(items: seq<T>, g: nat, lo: nat, hi: nat)
    requires g <= |items| && lo <= hi <= |items| - g
    ensures items[g..][lo..hi] == items[lo + g..hi + g]
  {
  }

  /** There are `ceil(n / g)` chunks: the fewest that hold `n` icons. */
  lemma {:induction false} ChunkCount<T>(items: seq<T>, g: nat)
    requires g > 0
    ensures (|ChunksOf(items, g)| - 1) * g < |items| <= |ChunksOf(items, g)| * g
    decreases |items|
  {
    var n := |items|;
    if n > g {
      var rest := ChunksOf(items[g..], g);
      ChunkCount(items[g..], g);
      assert ChunksOf(items, g) == [items[..g]] + rest;
      MulSucc(|rest| - 1, g);
      MulSucc(|rest|, g);
    }
  }

  /** The grouping step: `range(0, n, 0)` raises, a negative step yields no
      groups, and a positive one cuts the list into consecutive groups that
      join back to it, each non-empty with at most `g` icons and all but the
      last with exactly `g`. */
  function Chunk<T>(items: seq<T>, g: int): (r: Result<seq<seq<T>>>)
    ensures r.Err? <==> g == 0
    ensures r.Err? ==> r.error == ZeroStep
    ensures g < 0 ==> r == Ok([])
    ensures g > 0 ==>
      && r.Ok? && Concat(r.value) == items
      && (forall k :: 0 <= k < |r.value| ==> 0 < |r.value[k]| <= g)
      && (forall k :: 0 <= k < |r.value| - 1 ==> |r.value[k]| == g)
  {
    if g == 0 then Err(ZeroStep)
    else if g < 0 then Ok([])
    else
      ChunksPartition(items, g);
      Ok(ChunksOf(items, g))
  }

  // ---- auto-fill as written ---------------------------------------------

  /** `count` iterations of `icons[random.randint(0, len(icons))]`. The drawn
      index may equal `len(icons)`, which raises. */
  function FillDraws<T>(icons: seq<T>, count: int, rng: Stream, pos: nat): (r: Result<(seq<T>, nat)>)
    ensures r.Ok? ==> |r.value.0| == Max0(count) && r.value.1 == pos + Max0(count)
    ensures r.Ok? ==> forall i :: pos <= i < r.value.1 ==>
      rng(i) % (|icons| + 1) < |icons| && r.value.0[i - pos] == icons[rng(i) % (|icons| + 1)]
    ensures r.Ok? ==> forall k :: 0 <= k < |r.value.0| ==> r.value.0[k] in icons
    ensures r.Err? ==> r.error.IndexOutOfRange? && r.error.index == |icons|
    decreases count
  {
    if count <= 0 then Ok(([], pos))
    else
      var draw := RandInt(rng, pos, 0, |icons|).value;
      if draw.0 >= |icons| then Err(IndexOutOfRange(draw.0, |icons|))
      else
        var rest :- FillDraws(icons, count - 1, rng, draw.1);
        Ok(([icons[draw.0]] + rest.0, rest.1))
  }

  /** The fill fails exactly when one of its draws lands one past the end. */
  lemma {:induction false} FillDrawsFailsIffIndexIsLength<T>(icons: seq<T>, count: int, rng: Stream, pos: nat)
    ensures FillDraws(icons, count, rng, pos).Err? <==>
            exists i :: pos <= i < pos + count && rng(i) % (|icons| + 1) == |icons|
    decreases count
  {
    var n := |icons|;
    if count > 0 && rng(pos) % (n + 1) != n {
      FillDrawsFailsIffIndexIsLength(icons, count - 1, rng, pos + 1);
    }
  }

  function Last<T>(groups: seq<seq<T>>): seq<T>
    requires |groups| > 0
  {
    groups[|groups| - 1]
  }

  /** The fill of the last group as written: when enabled and the last
      group is short, `group_icon_num - len(groups)` icons are appended: the
      number of groups is subtracted, not the last group's size. */
  function AutoFill<T>(groups: seq<seq<T>>, icons: seq<T>, g: int, enabled: bool, rng: Stream, pos: nat)
    : (r: Result<(seq<seq<T>>, nat)>)
    ensures !enabled ==> r == Ok((groups, pos))
    ensures r.Err? ==> enabled && (|groups| == 0 || |Last(groups)| < g)
    ensures enabled && |groups| == 0 ==> r.Err?
    ensures r.Ok? ==> |r.value.0| == |groups|
    ensures r.Ok? ==> forall k :: 0 <= k < |groups| - 1 ==> r.value.0[k] == groups[k]
    ensures r.Ok? && |groups| > 0 ==>
      var added := if enabled && |Last(groups)| < g then Max0(g - |groups|) else 0;
      && |Last(r.value.0)| == |Last(groups)| + added
      && Last(r.value.0)[..|Last(groups)|] == Last(groups)
      && (forall k :: |Last(groups)| <= k < |Last(r.value.0)| ==> Last(r.value.0)[k] in icons)
      && r.value.1 == pos + added
  {
    if !enabled then Ok((groups, pos))
    else if |groups| == 0 then Err(IndexOutOfRange(-1, 0))
    else if |Last(groups)| >= g then Ok((groups, pos))
    else
      var fill :- FillDraws(icons, g - |groups|, rng, pos);
      var filled := Last(groups) + fill.0;
      assert filled[..|Last(groups)|] == Last(groups);
      Ok((groups[..|groups| - 1] + [filled], fill.1))
  }

  /** Grouping followed by the fill, as `generate_by_yolo` prepares them. */
  function PrepareGroups<T>(icons: seq<T>, g: int, autoFill: bool, rng: Stream, pos: nat)
    : (r: Result<(seq<seq<T>>, nat)>)
    ensures g == 0 ==> r == Err(ZeroStep)
    ensures g > 0 && !autoFill ==> r == Ok((ChunksOf(icons, g), pos))
  {
    var groups :- Chunk(icons, g);
    AutoFill(groups, icons, g, autoFill, rng, pos)
  }

  /** Every icon of every prepared group comes from the icon list. */
  lemma PreparedIconsComeFromList<T>(icons: seq<T>, g: int, autoFill: bool, rng: Stream, pos: nat)
    requires PrepareGroups(icons, g, autoFill, rng, pos).Ok?
    ensures var groups := PrepareGroups(icons, g, autoFill, rng, pos).value.0;
            forall k, j :: 0 <= k < |groups| && 0 <= j < |groups[k]| ==> groups[k][j] in icons
  {
    var chunks := Chunk(icons, g).value;
    var groups := PrepareGroups(icons, g, autoFill, rng, pos).value.0;
    assert AutoFill(chunks, icons, g, autoFill, rng, pos).value.0 == groups;
    forall k, j | 0 <= k < |groups| && 0 <= j < |groups[k]|
      ensures groups[k][j] in icons
    {
      if k < |groups| - 1 {
        assert groups[k] == chunks[k];
        ChunkMembers(chunks, icons, g, k, j);
      } else if j < |Last(chunks)| {
        assert groups[k][j] == Last(groups)[..|Last(chunks)|][j];
        ChunkMembers(chunks, icons, g, k, j);
      }
    }
  }

  /** Every chunk is non-empty and made of listed icons. */
  lemma ChunkGroupsFromList<T>(icons: seq<T>, g: int, groups: seq<seq<T>>)
    requires Chunk(icons, g) == Ok(groups)
    ensures forall k :: 0 <= k < |groups| ==>
      |groups[k]| > 0 && forall j :: 0 <= j < |groups[k]| ==> groups[k][j] in icons
  {
    if g > 0 {
      ChunksPartition(icons, g);
      forall k, j | 0 <= k < |groups| && 0 <= j < |groups[k]|
        ensures groups[k][j] in icons
      {
        ChunkMembers(groups, icons, g, k, j);
      }
    }
  }

  lemma ChunkMembers<T>(chunks: seq<seq<T>>, icons: seq<T>, g: int, k: nat, j: nat)
    requires g != 0 && Chunk(icons, g) == Ok(chunks)
    requires k < |chunks| && j < |chunks[k]|
    ensures chunks[k][j] in icons
  {
    ChunkSlices(icons, g, k);
    var lo := k * g;
    assert chunks[k][j] == icons[lo + j];
  }

  /** As written, a short last group is not filled up to `group_icon_num`:
      four icons in groups of three give a last group of two. */
  lemma AutoFillFallsShort()
    ensures PrepareGroups([10, 11, 12, 13], 3, true, Constant(0), 0)
            == Ok(([[10, 11, 12], [13, 10]], 1))
  {
    var icons := [10, 11, 12, 13];
    assert ChunksOf(icons[3..], 3) == [[13]];
    assert icons[..3] == [10, 11, 12];
    assert ChunksOf(icons, 3) == [[10, 11, 12], [13]];
    assert Constant(0)(0) == 0;
    assert RandInt(Constant(0), 0, 0, 4) == Ok((0, 1));
    assert FillDraws(icons, 0, Constant(0), 1) == Ok(([], 1));
    var f := FillDraws(icons, 1, Constant(0), 0);
    assert f.Ok?;
    assert |f.value.0| == 1;
    assert f.value.0[0] == 10;
    assert f.value.0 == [10];
    assert f == Ok(([10], 1));
    var chunks := [[10, 11, 12], [13]];
    assert Chunk(icons, 3) == Ok(chunks);
    assert chunks[..1] == [[10, 11, 12]];
    assert [13] + [10] == [13, 10];
    assert Last(chunks) == [13] && |chunks| == 2;
    assert FillDraws(icons, 3 - |chunks|, Constant(0), 0) == Ok(([10], 1));
    assert chunks[..|chunks| - 1] + [Last(chunks) + [10]] == [[10, 11, 12], [13, 10]];
    assert AutoFill(chunks, icons, 3, true, Constant(0), 0) == Ok(([[10, 11, 12], [13, 10]], 1));
  }

  /** As written, the fill's draw `randint(0, len(icons))` can return
      `len(icons)`, and subscripting with it raises. */
  lemma AutoFillIndexCanBeLength()
    ensures PrepareGroups([10, 11, 12, 13], 3, true, Constant(4), 0)
            == Err(IndexOutOfRange(4, 4))
  {
    var icons := [10, 11, 12, 13];
    assert ChunksOf(icons[3..], 3) == [[13]];
    assert icons[..3] == [10, 11, 12];
    assert ChunksOf(icons, 3) == [[10, 11, 12], [13]];
    assert RandInt(Constant(4), 0, 0, 4) == Ok((4, 1));
  }

  // ---- auto-fill as intended ------------------------------------------

  /** `count` icons drawn uniformly from the list with `randint(0, len - 1)`. */
  function FillDrawsIntended<T>(icons: seq<T>, count: nat, rng: Stream, pos: nat): (r: (seq<T>, nat))
    requires |icons| > 0
    ensures |r.0| == count && r.1 == pos + count
    ensures forall k :: 0 <= k < count ==> r.0[k] in icons
  {
    if count == 0 then ([], pos)
    else
      var draw := RandInt(rng, pos, 0, |icons| - 1).value;
      var rest := FillDrawsIntended(icons, count - 1, rng, draw.1);
      ([icons[draw.0]] + rest.0, rest.1)
  }

  /** The fill the documentation describes: a short last group is topped up
      to exactly `group_icon_num` icons from the list. */
  function AutoFillIntended<T>(groups: seq<seq<T>>, icons: seq<T>, g: int, enabled: bool, rng: Stream, pos: nat)
    : (r: Result<(seq<seq<T>>, nat)>)
    requires forall k :: 0 <= k < |groups| ==> |groups[k]| > 0 && forall j :: 0 <= j < |groups[k]| ==> groups[k][j] in icons
    ensures !enabled ==> r == Ok((groups, pos))
    ensures r.Err? <==> enabled && |groups| == 0
    ensures r.Ok? ==> |r.value.0| == |groups|
    ensures r.Ok? ==> forall k :: 0 <= k < |groups| - 1 ==> r.value.0[k] == groups[k]
    ensures r.Ok? && enabled && |groups| > 0 ==>
      |Last(r.value.0)| == if |Last(groups)| < g then g else |Last(groups)|
  {
    if !enabled then Ok((groups, pos))
    else if |groups| == 0 then Err(IndexOutOfRange(-1, 0))
    else if |Last(groups)| >= g then Ok((groups, pos))
    else
      assert Last(groups)[0] in icons;
      var fill := FillDrawsIntended(icons, g - |Last(groups)|, rng, pos);
      Ok((groups[..|groups| - 1] + [Last(groups) + fill.0], fill.1))
  }

  /** Grouping followed by the intended fill. */
  function PrepareGroupsIntended<T>(icons: seq<T>, g: int, autoFill: bool, rng: Stream, pos: nat)
    : (r: Result<(seq<seq<T>>, nat)>)
    ensures g == 0 ==> r == Err(ZeroStep)
    ensures g > 0 && !autoFill ==> r == Ok((ChunksOf(icons, g), pos))
  {
    var groups :- Chunk(icons, g);
    ChunkGroupsFromList(icons, g, groups);
    AutoFillIntended(groups, icons, g, autoFill, rng, pos)
  }

  /** With the intended fill every group holds exactly `group_icon_num`
      icons, whatever the draws. */
  lemma IntendedGroupsAreFull<T>(icons: seq<T>, g: int, rng: Stream, pos: nat)
    requires g > 0 && |icons| > 0
    ensures var r := PrepareGroupsIntended(icons, g, true, rng, pos);
            r.Ok? && forall k :: 0 <= k < |r.value.0| ==> |r.value.0[k]| == g
  {
    var chunks := ChunksOf(icons, g);
    ChunksPartition(icons, g);
    assert |chunks| > 0;
  }
}

=== FILE: imaging.dfy ===
/** Icon rasters and the augmentation steps applied to them before pasting:
    colour replacement, rotation and the two flips. */
module Imaging {
  import opened Common
  import opened Draws

  /** An RGBA pixel, as after `convert("RGBA")`. */
  datatype Pixel = Pixel(r: Byte, g: Byte, b: Byte, a: Byte)

  /** A colour to look for: any integers, as the caller's tuple. */
  datatype Rgb = Rgb(r: int, g: int, b: int)

  /** A colour written into pixels. */
  datatype Colour = Colour(r: Byte, g: Byte, b: Byte)

  /** `rows[y][x]` is the pixel in column `x` of row `y`. */
  datatype Raster = Raster(width: nat, height: nat, rows: seq<seq<Pixel>>)

  predicate Rectangular(im: Raster)
  {
    |im.rows| == im.height && forall y :: 0 <= y < |im.rows| ==> |im.rows[y]| == im.width
  }

  /** A decoded image: `height` rows of `width` pixels each. */
  type Image = im: Raster | Rectangular(im) witness Raster(0, 0, [])

  // ---- colour replacement --------------------------------------------

  /** One channel lies in `[t - tol, t + tol]`, both ends included. */
  predicate ChannelMatches(v: int, t: int, tol: int)
  {
    t - tol <= v <= t + tol
  }

  /** The mask of `_change_icon_color`: every colour channel close enough. */
  predicate Matches(p: Pixel, target: Rgb, tol: int)
  {
    ChannelMatches(p.r, target.r, tol) && ChannelMatches(p.g, target.g, tol)
    && ChannelMatches(p.b, target.b, tol)
  }

  function Recolour(p: Pixel, target: Rgb, replace: Colour, tol: int): Pixel
  {
    if Matches(p, target, tol) then Pixel(replace.r, replace.g, replace.b, p.a) else p
  }

  /** One row, every pixel passed through `Recolour`. */
  function RecolourRow(row: seq<Pixel>, target: Rgb, replace: Colour, tol: int): (r: seq<Pixel>)
    ensures |r| == |row|
  {
    if |row| == 0 then [] else [Recolour(row[0], target, replace, tol)] + RecolourRow(row[1..], target, replace, tol)
  }

  lemma {:induction false} RecolourRowAt(row: seq<Pixel>, target: Rgb, replace: Colour, tol: int, x: nat)
    requires x < |row|
    ensures RecolourRow(row, target, replace, tol)[x] == Recolour(row[x], target, replace, tol)
  {
    if x > 0 {
      RecolourRowAt(row[1..], target, replace, tol, x - 1);
    }
  }

  /** Every row recoloured; each keeps its length. */
  function RecolourRows(rows: seq<seq<Pixel>>, target: Rgb, replace: Colour, tol: int): (r: seq<seq<Pixel>>)
    ensures |r| == |rows|
    ensures forall y :: 0 <= y < |rows| ==> r[y] == RecolourRow(rows[y], target, replace, tol)
  {
    if |rows| == 0 then []
    else [RecolourRow(rows[0], target, replace, tol)] + RecolourRows(rows[1..], target, replace, tol)
  }

  /** Replaces the colour of every masked pixel; the dimensions stay as they
      were. */
  function ChangeIconColor(im: Image, target: Rgb, replace: Colour, tol: int): (r: Image)
    ensures r.width == im.width && r.height == im.height
  {
    Raster(im.width, im.height, RecolourRows(im.rows, target, replace, tol))
  }

  /** Masked pixels take the replacement colour and keep their alpha; the
      others are left as they were. */
  lemma ChangeIconColorPointwise(im: Image, target: Rgb, replace: Colour, tol: int, y: nat, x: nat)
    requires y < im.height && x < im.width
    ensures var r := ChangeIconColor(im, target, replace, tol);
      r.rows[y][x].a == im.rows[y][x].a &&
      (Matches(im.rows[y][x], target, tol) ==>
         r.rows[y][x].r == replace.r && r.rows[y][x].g == replace.g && r.rows[y][x].b == replace.b) &&
      (!Matches(im.rows[y][x], target, tol) ==> r.rows[y][x] == im.rows[y][x])
  {
    RecolourRowAt(im.rows[y], target, replace, tol, x);
  }

  /** Replacing twice with the same arguments is replacing once: a replaced
      pixel either still matches and is replaced by the same colour, or no
      longer matches and is left alone. */
  lemma ChangeIconColorIdempotent(im: Image, target: Rgb, replace: Colour, tol: int)
    ensures ChangeIconColor(ChangeIconColor(im, target, replace, tol), target, replace, tol)
            == ChangeIconColor(im, target, replace, tol)
  {
    var once := ChangeIconColor(im, target, replace, tol);
    var twice := ChangeIconColor(once, target, replace, tol);
    forall y | 0 <= y < im.height
      ensures twice.rows[y] == once.rows[y]
    {
      forall x | 0 <= x < im.width
        ensures twice.rows[y][x] == once.rows[y][x]
      {
        RecolourRowAt(im.rows[y], target, replace, tol, x);
        RecolourRowAt(once.rows[y], target, replace, tol, x);
      }
    }
  }

  // ---- flips -----------------------------------------------------------

  /** A sequence read back to front, built element by element. */
  function Reverse<T>(s: seq<T>): (r: seq<T>)
    ensures |r| == |s|
    ensures forall i :: 0 <= i < |s| ==> r[i] == s[|s| - 1 - i]
  {
    if |s| == 0 then [] else Reverse(s[1..]) + [s[0]]
  }

  /** Every row reversed; each keeps its length. */
  function MirrorRows(rows: seq<seq<Pixel>>): (r: seq<seq<Pixel>>)
    ensures |r| == |rows|
    ensures forall y :: 0 <= y < |rows| ==> r[y] == Reverse(rows[y])
  {
    if |rows| == 0 then [] else [Reverse(rows[0])] + MirrorRows(rows[1..])
  }

  /** `Transpose.FLIP_LEFT_RIGHT`: every row mirrored. */
  function FlipLeftRight(im: Image): (r: Image)
    ensures r.width == im.width && r.height == im.height
  {
    Raster(im.width, im.height, MirrorRows(im.rows))
  }

  /** `Transpose.FLIP_TOP_BOTTOM`: the order of the rows mirrored. */
  function FlipTopBottom(im: Image): (r: Image)
    ensures r.width == im.width && r.height == im.height
  {
    Raster(im.width, im.height, Reverse(im.rows))
  }

  /** After a left-right flip, pixel `(y, x)` comes from the mirrored column
      of the same row. */
  lemma FlipLeftRightAt(im: Image, y: nat, x: nat)
    requires y < im.height && x < im.width
    ensures FlipLeftRight(im).rows[y][x] == im.rows[y][im.width - 1 - x]
  {
  }

  /** After a top-bottom flip, row `y` is the mirrored row. */
  lemma FlipTopBottomAt(im: Image, y: nat)
    requires y < im.height
    ensures FlipTopBottom(im).rows[y] == im.rows[im.height - 1 - y]
  {
  }

  lemma FlipLeftRightInvolution(im: Image)
    ensures FlipLeftRight(FlipLeftRight(im)) == im
  {
    var once := FlipLeftRight(im);
    var twice := FlipLeftRight(once);
    forall y | 0 <= y < im.height
      ensures twice.rows[y] == im.rows[y]
    {
      forall x | 0 <= x < im.width
        ensures twice.rows[y][x] == im.rows[y][x]
      {
        FlipLeftRightAt(once, y, x);
        FlipLeftRightAt(im, y, im.width - 1 - x);
      }
    }
  }

  lemma FlipTopBottomInvolution(im: Image)
    ensures FlipTopBottom(FlipTopBottom(im)) == im
  {
    var once := FlipTopBottom(im);
    var twice := FlipTopBottom(once);
    forall y | 0 <= y < im.height
      ensures twice.rows[y] == im.rows[y]
    {
      FlipTopBottomAt(once, y);
      FlipTopBottomAt(im, im.height - 1 - y);
    }
  }

  // ---- the augmentation pipeline ---------------------------------------

  /** The switches and colour settings passed to the augmentation. */
  datatype AugmentFlags = AugmentFlags(randomRotate: bool, randomFlip: bool, randomColor: bool,
                                       target: Rgb, tolerance: int)

  /** The random decisions of one augmentation: the replacement colour if the
      colour step runs, the angle if the rotation runs, and the two flips. */
  datatype AugmentChoice = AugmentChoice(recolour: Option<Colour>, angle: Option<int>,
                                         flipLeftRight: bool, flipTopBottom: bool)

  /** `random.randint(1, 255)`: one replacement channel. */
  function DrawChannel(rng: Stream, pos: nat): (c: Byte)
    ensures 1 <= c <= 255
  {
    RandInt(rng, pos, 1, 255).value.0
  }

  /** `random.randint(0, 360)`: a rotation angle in degrees, both ends
      included. */
  function DrawAngle(rng: Stream, pos: nat): (a: int)
    ensures 0 <= a <= 360
  {
    RandInt(rng, pos, 0, 360).value.0
  }

  /** Draws the decisions in program order: the colour coin, then its three
      channels, the rotation coin, then its angle, then the two flip coins.
      A coin is drawn only for an enabled step, and a step runs exactly when
      it is enabled and its coin passes. */
  function DrawAugmentation(f: AugmentFlags, rng: Stream, pos: nat): (r: (AugmentChoice, nat))
    ensures var c := r.0;
      var p1 := pos + (if f.randomColor then 1 else 0);
      var p2 := p1 + (if c.recolour.Some? then 3 else 0);
      var p4 := p2 + (if f.randomRotate then 1 else 0) + (if c.angle.Some? then 1 else 0);
      && (c.recolour.Some? <==> f.randomColor && Coin(rng, pos).0)
      && (c.recolour.Some? ==>
            c.recolour.value == Colour(DrawChannel(rng, p1), DrawChannel(rng, p1 + 1), DrawChannel(rng, p1 + 2)))
      && (c.angle.Some? <==> f.randomRotate && Coin(rng, p2).0)
      && (c.angle.Some? ==> c.angle.value == DrawAngle(rng, p2 + 1))
      && (c.flipLeftRight <==> f.randomFlip && Coin(rng, p4).0)
      && (c.flipTopBottom <==> f.randomFlip && Coin(rng, p4 + 1).0)
      && r.1 == p4 + (if f.randomFlip then 2 else 0)
  {
    var colourCoin := if f.randomColor then Coin(rng, pos) else (false, pos);
    var p1 := colourCoin.1;
    var recolour :=
      if colourCoin.0
      then Some(Colour(DrawChannel(rng, p1), DrawChannel(rng, p1 + 1), DrawChannel(rng, p1 + 2)))
      else None;
    var p2 := if colourCoin.0 then p1 + 3 else p1;
    var rotateCoin := if f.randomRotate then Coin(rng, p2) else (false, p2);
    var p3 := rotateCoin.1;
    var angle := if rotateCoin.0 then Some(DrawAngle(rng, p3)) else None;
    var p4 := if rotateCoin.0 then p3 + 1 else p3;
    var flipH := if f.randomFlip then Coin(rng, p4) else (false, p4);
    var flipV := if f.randomFlip then Coin(rng, flipH.1) else (false, flipH.1);
    (AugmentChoice(recolour, angle, flipH.0, flipV.0), flipV.1)
  }

  /** The image the colour step hands on: recoloured when it runs. */
  function Coloured(im: Image, f: AugmentFlags, c: AugmentChoice): (r: Image)
    ensures r.width == im.width && r.height == im.height
  {
    if c.recolour.Some? then ChangeIconColor(im, f.target, c.recolour.value, f.tolerance) else im
  }

  lemma ColouredAt(im: Image, f: AugmentFlags, c: AugmentChoice, y: nat, x: nat)
    requires y < im.height && x < im.width
    ensures Coloured(im, f, c).rows[y][x]
            == if c.recolour.Some? then Recolour(im.rows[y][x], f.target, c.recolour.value, f.tolerance)
               else im.rows[y][x]
  {
    if c.recolour.Some? {
      RecolourRowAt(im.rows[y], f.target, c.recolour.value, f.tolerance, x);
    }
  }

  /** The image the rotation step hands on: rotated when it runs. */
  function Rotated(rotate: (Image, int) -> Image, im: Image, c: AugmentChoice): (r: Image)
    ensures c.angle.None? ==> r.width == im.width && r.height == im.height
  {
    if c.angle.Some? then rotate(im, c.angle.value) else im
  }

  /** The two flips, left-right first; each runs when it was chosen. */
  function Flips(c: AugmentChoice, im: Image): (r: Image)
    ensures r.width == im.width && r.height == im.height
  {
    var mirrored := if c.flipLeftRight then FlipLeftRight(im) else im;
    if c.flipTopBottom then FlipTopBottom(mirrored) else mirrored
  }

  /** The pixel the flips put at `(y, x)` of an image of the given size. */
  function FlipSource(c: AugmentChoice, width: nat, height: nat, y: nat, x: nat): (nat, nat)
    requires y < height && x < width
  {
    (if c.flipTopBottom then height - 1 - y else y, if c.flipLeftRight then width - 1 - x else x)
  }

  /** Pixel `(y, x)` after the flips is the pixel they bring there. */
  lemma FlipsAt(c: AugmentChoice, im: Image, y: nat, x: nat)
    requires y < im.height && x < im.width
    ensures var (sy, sx) := FlipSource(c, im.width, im.height, y, x);
            Flips(c, im).rows[y][x] == im.rows[sy][sx]
  {
    if c.flipLeftRight && c.flipTopBottom {
      BothFlipsAt(c, im, y, x);
    } else if c.flipLeftRight {
      FlipLeftRightAt(im, y, x);
    } else if c.flipTopBottom {
      FlipTopBottomAt(im, y);
    }
  }

  lemma BothFlipsAt(c: AugmentChoice, im: Image, y: nat, x: nat)
    requires c.flipLeftRight && c.flipTopBottom && y < im.height && x < im.width
    ensures Flips(c, im).rows[y][x] == im.rows[im.height - 1 - y][im.width - 1 - x]
  {
    var m := FlipLeftRight(im);
    FlipTopBottomAt(m, y);
    FlipLeftRightAt(im, im.height - 1 - y, x);
  }

  /** Applies the chosen steps in the fixed order colour, rotation,
      left-right flip, top-bottom flip. Rotation (bicubic, canvas expanded)
      is the image library's: it is the `rotate` parameter. */
  function ApplyAugmentation(rotate: (Image, int) -> Image, im: Image, f: AugmentFlags,
                             c: AugmentChoice): (r: Image)
    ensures c.angle.None? ==> r.width == im.width && r.height == im.height
    ensures c.angle.Some? ==> var rot := rotate(Coloured(im, f, c), c.angle.value);
      r.width == rot.width && r.height == rot.height
    ensures c == AugmentChoice(None, None, false, false) ==> r == im
  {
    Flips(c, Rotated(rotate, Coloured(im, f, c), c))
  }

  /** Without rotation, pixel `(y, x)` of the result is the pixel the flips
      bring there from the original, recoloured when the colour step runs. */
  lemma ApplyAugmentationPointwise(rotate: (Image, int) -> Image, im: Image, f: AugmentFlags,
                                   c: AugmentChoice, y: nat, x: nat)
    requires c.angle.None? && y < im.height && x < im.width
    ensures var (sy, sx) := FlipSource(c, im.width, im.height, y, x);
      var p := im.rows[sy][sx];
      ApplyAugmentation(rotate, im, f, c).rows[y][x]
        == if c.recolour.Some? then Recolour(p, f.target, c.recolour.value, f.tolerance) else p
  {
    var (sy, sx) := FlipSource(c, im.width, im.height, y, x);
    FlipsAt(c, Coloured(im, f, c), y, x);
    ColouredAt(im, f, c, sy, sx);
  }

  /** With rotation, the rotation receives the recoloured image and the flips
      act on the rotated one. */
  lemma ApplyAugmentationRotated(rotate: (Image, int) -> Image, im: Image, f: AugmentFlags,
                                 c: AugmentChoice, y: nat, x: nat)
    requires c.angle.Some?
    requires var rot := rotate(Coloured(im, f, c), c.angle.value); y < rot.height && x < rot.width
    ensures var rot := rotate(Coloured(im, f, c), c.angle.value);
      var (sy, sx) := FlipSource(c, rot.width, rot.height, y, x);
      ApplyAugmentation(rotate, im, f, c).rows[y][x] == rot.rows[sy][sx]
  {
    FlipsAt(c, rotate(Coloured(im, f, c), c.angle.value), y, x);
  }

  /** `_perform_icon_image_augmentation`: draw the decisions, then apply them. */
  function Augment(rotate: (Image, int) -> Image, im: Image, f: AugmentFlags, rng: Stream, pos: nat)
    : (r: (Image, nat))
    ensures !f.randomColor && !f.randomRotate && !f.randomFlip ==> r == (im, pos)
    ensures !f.randomRotate ==> r.0.width == im.width && r.0.height == im.height
    ensures pos <= r.1 <= pos + 8
  {
    var drawn := DrawAugmentation(f, rng, pos);
    (ApplyAugmentation(rotate, im, f, drawn.0), drawn.1)
  }

  /** End to end without rotation: the coins decide the steps, and pixel
      `(y, x)` is the flipped source pixel, recoloured with the drawn
      channels when the colour coin passed. */
  lemma AugmentWithoutRotation(rotate: (Image, int) -> Image, im: Image, f: AugmentFlags,
                               rng: Stream, pos: nat, y: nat, x: nat)
    requires !f.randomRotate && y < im.height && x < im.width
    ensures var recolour := f.randomColor && Coin(rng, pos).0;
      var p1 := pos + (if f.randomColor then 1 else 0);
      var p4 := p1 + (if recolour then 3 else 0);
      var sy := if f.randomFlip && Coin(rng, p4 + 1).0 then im.height - 1 - y else y;
      var sx := if f.randomFlip && Coin(rng, p4).0 then im.width - 1 - x else x;
      var p := im.rows[sy][sx];
      var replace := Colour(DrawChannel(rng, p1), DrawChannel(rng, p1 + 1), DrawChannel(rng, p1 + 2));
      Augment(rotate, im, f, rng, pos).0.rows[y][x]
        == if recolour then Recolour(p, f.target, replace, f.tolerance) else p
  {
    var c := DrawAugmentation(f, rng, pos).0;
    DrawWithoutRotation(f, rng, pos);
    ApplyAugmentationPointwise(rotate, im, f, c, y, x);
  }

  /** Without rotation the choice has no angle, and the coins at their
      stream positions decide the colour step and the flips. */
  lemma DrawWithoutRotation(f: AugmentFlags, rng: Stream, pos: nat)
    requires !f.randomRotate
    ensures var c := DrawAugmentation(f, rng, pos).0;
      var recolour := f.randomColor && Coin(rng, pos).0;
      var p1 := pos + (if f.randomColor then 1 else 0);
      var p4 := p1 + (if recolour then 3 else 0);
      && c.angle.None?
      && (c.recolour.Some? <==> recolour)
      && (recolour ==>
            c.recolour.value == Colour(DrawChannel(rng, p1), DrawChannel(rng, p1 + 1), DrawChannel(rng, p1 + 2)))
      && (c.flipLeftRight <==> f.randomFlip && Coin(rng, p4).0)
      && (c.flipTopBottom <==> f.randomFlip && Coin(rng, p4 + 1).0)
  {
  }
}

=== FILE: placement.dfy ===
/** Where an icon goes: a random top-left corner inside the horizontal region
    reserved for its position in the group. The canvas is always split into
    three regions of `W div 3` columns, whatever the group size. */
module Placement {
  import opened Common
  import opened Draws
  import opened Yolo

  /** `bg_width // 3`. */
  function RegionWidth(bgWidth: nat): nat
  {
    bgWidth / 3
  }

  /** The inclusive range of x for the icon at `index`: the padding moves
      only the left end. */
  function XRange(index: nat, iconWidth: nat, bgWidth: nat, padding: int): (int, int)
  {
    var rx := RegionWidth(bgWidth);
    (padding + index * rx, (index + 1) * rx - iconWidth)
  }

  /** The inclusive range of y: the padding moves only the top end. */
  function YRange(iconHeight: nat, bgHeight: nat, padding: int): (int, int)
  {
    (padding, bgHeight - iconHeight)
  }

  /** Two `randint` draws, x then y. An empty range raises. */
  function PlaceIcon(index: nat, iconWidth: nat, iconHeight: nat, bgWidth: nat, bgHeight: nat,
                     padding: int, rng: Stream, pos: nat): (r: Result<(Box, nat)>)
    ensures var rx := bgWidth / 3;
      r.Ok? <==> padding + index * rx <= (index + 1) * rx - iconWidth && padding <= bgHeight - iconHeight
    ensures r.Err? ==> r.error.EmptyRange?
    ensures r.Ok? ==>
      var b := r.value.0;
      var rx := bgWidth / 3;
      && b.w == iconWidth && b.h == iconHeight
      && padding + index * rx <= b.x <= (index + 1) * rx - iconWidth
      && padding <= b.y <= bgHeight - iconHeight
      && r.value.1 == pos + 2
  {
    var (xLo, xHi) := XRange(index, iconWidth, bgWidth, padding);
    var (yLo, yHi) := YRange(iconHeight, bgHeight, padding);
    var x :- RandInt(rng, pos, xLo, xHi);
    var y :- RandInt(rng, x.1, yLo, yHi);
    Ok((Box(x.0, y.0, iconWidth, iconHeight), y.1))
  }

  /** With a non-negative padding, an earlier icon of the group ends at or
      before the column where a later one starts: boxes never overlap
      horizontally. */
  lemma PlacedBoxesDoNotOverlap(i: nat, j: nat, wi: nat, hi: nat, wj: nat, hj: nat,
                                bgWidth: nat, bgHeight: nat, padding: int,
                                rng: Stream, pi: nat, pj: nat)
    requires i < j && padding >= 0
    requires PlaceIcon(i, wi, hi, bgWidth, bgHeight, padding, rng, pi).Ok?
    requires PlaceIcon(j, wj, hj, bgWidth, bgHeight, padding, rng, pj).Ok?
    ensures var bi := PlaceIcon(i, wi, hi, bgWidth, bgHeight, padding, rng, pi).value.0;
            var bj := PlaceIcon(j, wj, hj, bgWidth, bgHeight, padding, rng, pj).value.0;
            bi.x + bi.w <= bj.x
  {
    MulMonotone(i + 1, j, bgWidth / 3);
  }

  /** The first three icons of a group land on the canvas when the padding
      is non-negative, since three regions fit in the width. */
  lemma FirstThreeInsideCanvas(i: nat, w: nat, h: nat, bgWidth: nat, bgHeight: nat, padding: int,
                               rng: Stream, pos: nat)
    requires i <= 2 && padding >= 0
    requires PlaceIcon(i, w, h, bgWidth, bgHeight, padding, rng, pos).Ok?
    ensures InsideCanvas(PlaceIcon(i, w, h, bgWidth, bgHeight, padding, rng, pos).value.0, bgWidth, bgHeight)
  {
    MulMonotone(i + 1, 3, bgWidth / 3);
  }

  /** From the fourth icon on, the fixed three-way split puts the icon past
      the right edge whenever the padding is at least 3 (the default is 5). */
  lemma FourthOnwardOffCanvas(i: nat, w: nat, h: nat, bgWidth: nat, bgHeight: nat, padding: int,
                              rng: Stream, pos: nat)
    requires i >= 3 && padding >= 3
    requires PlaceIcon(i, w, h, bgWidth, bgHeight, padding, rng, pos).Ok?
    ensures PlaceIcon(i, w, h, bgWidth, bgHeight, padding, rng, pos).value.0.x >= bgWidth
  {
    MulMonotone(3, i, bgWidth / 3);
  }
}

=== FILE: yolo.dfy ===
/** YOLO annotations: a placed icon's box normalised by the background size,
    quantised to six decimals, and the label file's text. */
module Yolo {
  import opened Common
  import opened Decimal6

  /** An icon pasted with its top-left corner at `(x, y)`, `w` wide, `h` high. */
  datatype Box = Box(x: int, y: int, w: nat, h: nat)

  /** One label line: the class id, then the box centre and size as
      fractions of the background's width and height. */
  datatype Annotation = Annotation(classId: int, xCenter: Fixed6, yCenter: Fixed6,
                                   width: Fixed6, height: Fixed6)

  /** The box of a pasted icon in YOLO form. The centre `x + w / 2` over the
      width `W` is the rational `(2x + w) / 2W`; likewise for `y`. Dividing
      by a zero side raises. */
  function Normalise(classId: int, b: Box, bgWidth: nat, bgHeight: nat): (r: Result<Annotation>)
    ensures r.Err? <==> bgWidth == 0 || bgHeight == 0
    ensures r.Err? ==> r.error == ZeroDivision
    ensures r.Ok? ==>
      var a := r.value;
      && a.classId == classId
      && (a.xCenter.negative <==> 2 * b.x + b.w < 0)
      && (a.yCenter.negative <==> 2 * b.y + b.h < 0)
      && !a.width.negative && !a.height.negative
      && IsHalfEven(a.xCenter.scaled, Abs(2 * b.x + b.w) * Scale, 2 * bgWidth)
      && IsHalfEven(a.yCenter.scaled, Abs(2 * b.y + b.h) * Scale, 2 * bgHeight)
      && IsHalfEven(a.width.scaled, b.w * Scale, bgWidth)
      && IsHalfEven(a.height.scaled, b.h * Scale, bgHeight)
  {
    if bgWidth == 0 || bgHeight == 0 then Err(ZeroDivision)
    else Ok(Annotation(classId,
                       Quantize(2 * b.x + b.w, 2 * bgWidth),
                       Quantize(2 * b.y + b.h, 2 * bgHeight),
                       Quantize(b.w, bgWidth),
                       Quantize(b.h, bgHeight)))
  }

  /** The box lies on the canvas. */
  predicate InsideCanvas(b: Box, bgWidth: nat, bgHeight: nat)
  {
    0 <= b.x && b.x + b.w <= bgWidth && 0 <= b.y && b.y + b.h <= bgHeight
  }

  /** Each stored value is within 5e-7 of the exact fraction, written with the
      denominators multiplied out. */
  lemma NormaliseWithinHalfMillionth(classId: int, b: Box, bgWidth: nat, bgHeight: nat)
    requires bgWidth > 0 && bgHeight > 0
    ensures var a := Normalise(classId, b, bgWidth, bgHeight).value;
      && -2 * bgWidth <= 2 * (Millionths(a.xCenter) * (2 * bgWidth) - (2 * b.x + b.w) * Scale) <= 2 * bgWidth
      && -2 * bgHeight <= 2 * (Millionths(a.yCenter) * (2 * bgHeight) - (2 * b.y + b.h) * Scale) <= 2 * bgHeight
      && -(bgWidth as int) <= 2 * (Millionths(a.width) * bgWidth - b.w * Scale) <= bgWidth
      && -(bgHeight as int) <= 2 * (Millionths(a.height) * bgHeight - b.h * Scale) <= bgHeight
  {
    QuantizeWithinHalfMillionth(2 * b.x + b.w, 2 * bgWidth);
    QuantizeWithinHalfMillionth(2 * b.y + b.h, 2 * bgHeight);
    QuantizeWithinHalfMillionth(b.w, bgWidth);
    QuantizeWithinHalfMillionth(b.h, bgHeight);
  }

  /** A box on the canvas yields four values in [0, 1]. */
  lemma NormaliseUnitInterval(classId: int, b: Box, bgWidth: nat, bgHeight: nat)
    requires bgWidth > 0 && bgHeight > 0 && InsideCanvas(b, bgWidth, bgHeight)
    ensures var a := Normalise(classId, b, bgWidth, bgHeight).value;
      && !a.xCenter.negative && a.xCenter.scaled <= Scale
      && !a.yCenter.negative && a.yCenter.scaled <= Scale
      && !a.width.negative && a.width.scaled <= Scale
      && !a.height.negative && a.height.scaled <= Scale
  {
    QuantizeUnitInterval(2 * b.x + b.w, 2 * bgWidth);
    QuantizeUnitInterval(2 * b.y + b.h, 2 * bgHeight);
    QuantizeUnitInterval(b.w, bgWidth);
    QuantizeUnitInterval(b.h, bgHeight);
  }

  // ---- label text -----------------------------------------------------

  /** The fields of a line, in output order. */
  function Fields(a: Annotation): seq<string>
  {
    [IntToString(a.classId), FormatFixed6(a.xCenter), FormatFixed6(a.yCenter),
     FormatFixed6(a.width), FormatFixed6(a.height)]
  }

  /** `sep.join(parts)` for a one-character separator. */
  function Join(parts: seq<string>, sep: char): string
    requires |parts| > 0
  {
    if |parts| == 1 then parts[0]
    else parts[0] + [sep] + Join(parts[1..], sep)
  }

  /** A character in no part, other than the separator, is not in the join. */
  lemma {:induction false} JoinAvoids(parts: seq<string>, sep: char, c: char)
    requires |parts| > 0 && c != sep
    requires forall k :: 0 <= k < |parts| ==> c !in parts[k]
    ensures c !in Join(parts, sep)
  {
    if |parts| > 1 {
      JoinAvoids(parts[1..], sep, c);
    }
  }

  /** One annotation's line, without its newline. */
  function LineText(a: Annotation): (s: string)
    ensures '\n' !in s
  {
    JoinAvoids(Fields(a), ' ', '\n');
    Join(Fields(a), ' ')
  }

  /** The label file: every line followed by a newline, in order. */
  function LabelText(anns: seq<Annotation>): (r: string)
    ensures |r| == 0 <==> |anns| == 0
    ensures |anns| > 0 ==> r[|r| - 1] == '\n'
  {
    if |anns| == 0 then ""
    else LineText(anns[0]) + "\n" + LabelText(anns[1..])
  }

  function FirstIndexOf(s: string, c: char): (i: nat)
    requires c in s
    ensures i < |s| && s[i] == c && c !in s[..i]
  {
    if s[0] == c then 0
    else
      var j := FirstIndexOf(s[1..], c);
      assert s[1..][..j] == s[1..j + 1];
      j + 1
  }

  /** `s.split(sep)` for a one-character separator. */
  function Split(s: string, sep: char): (parts: seq<string>)
    ensures |parts| > 0
    decreases |s|
  {
    if sep !in s then [s]
    else
      var i := FirstIndexOf(s, sep);
      [s[..i]] + Split(s[i + 1..], sep)
  }

  lemma SplitAfterPiece(p: string, sep: char, rest: string)
    requires sep !in p
    ensures Split(p + [sep] + rest, sep) == [p] + Split(rest, sep)
  {
    var s := p + [sep] + rest;
    assert s[|p|] == sep;
    var i := FirstIndexOf(s, sep);
    assert s[..i] == p;
    assert s[i + 1..] == rest;
  }

  /** Splitting a join at its separator gives back the parts, provided no
      part contains the separator. */
  lemma {:induction false} SplitJoin(parts: seq<string>, sep: char)
    requires |parts| > 0
    requires forall k :: 0 <= k < |parts| ==> sep !in parts[k]
    ensures Split(Join(parts, sep), sep) == parts
  {
    if |parts| == 1 {
      assert Split(parts[0], sep) == [parts[0]];
    } else {
      SplitJoin(parts[1..], sep);
      SplitAfterPiece(parts[0], sep, Join(parts[1..], sep));
      assert [parts[0]] + parts[1..] == parts;
    }
  }

  /** A line splits at its blanks into exactly its five fields. */
  lemma SplitLine(a: Annotation)
    ensures Split(LineText(a), ' ') == Fields(a)
  {
    SplitJoin(Fields(a), ' ');
  }

  /** The text of each annotation's line, in order. */
  function Lines(anns: seq<Annotation>): (ls: seq<string>)
    ensures |ls| == |anns|
  {
    if |anns| == 0 then [] else [LineText(anns[0])] + Lines(anns[1..])
  }

  /** The label file has exactly one newline-terminated line per annotation,
      in order: splitting at newlines gives the lines and a final empty piece. */
  lemma SplitLabel(anns: seq<Annotation>)
    ensures Split(LabelText(anns), '\n') == Lines(anns) + [""]
    ensures forall k :: 0 <= k < |anns| ==> Split(LabelText(anns), '\n')[k] == LineText(anns[k])
  {
    SplitLabelLines(anns);
    LinesIndex(anns);
  }

  lemma {:induction false} SplitLabelLines(anns: seq<Annotation>)
    ensures Split(LabelText(anns), '\n') == Lines(anns) + [""]
  {
    if |anns| == 0 {
      assert Split("", '\n') == [""];
    } else {
      var line := LineText(anns[0]);
      var tail := LabelText(anns[1..]);
      SplitLabelLines(anns[1..]);
      SplitAfterPiece(line, '\n', tail);
      assert LabelText(anns) == line + ['\n'] + tail;
      assert Lines(anns) + [""] == [line] + (Lines(anns[1..]) + [""]);
    }
  }

  lemma {:induction false} LinesIndex(anns: seq<Annotation>)
    ensures forall k :: 0 <= k < |anns| ==> Lines(anns)[k] == LineText(anns[k])
  {
    if |anns| > 0 {
      LinesIndex(anns[1..]);
    }
  }

  /** Reads one label line back. */
  function ParseLine(line: string): Option<Annotation>
  {
    var f := Split(line, ' ');
    if |f| != 5 then None
    else
      var id := ParseInt(f[0]);
      var xc := ParseFixed6(f[1]);
      var yc := ParseFixed6(f[2]);
      var w := ParseFixed6(f[3]);
      var h := ParseFixed6(f[4]);
      if id.Some? && xc.Some? && yc.Some? && w.Some? && h.Some?
      then Some(Annotation(id.value, xc.value, yc.value, w.value, h.value))
      else None
  }

  function ParseLines(lines: seq<string>): Option<seq<Annotation>>
  {
    if |lines| == 0 then Some([])
    else
      var head := ParseLine(lines[0]);
      var rest := ParseLines(lines[1..]);
      if head.Some? && rest.Some? then Some([head.value] + rest.value) else None
  }

  /** Reads a label file back: newline-terminated lines of five fields. */
  function ParseLabel(text: string): Option<seq<Annotation>>
  {
    var parts := Split(text, '\n');
    if parts[|parts| - 1] != "" then None
    else ParseLines(parts[..|parts| - 1])
  }

  lemma ParseLineRoundTrip(a: Annotation)
    ensures ParseLine(LineText(a)) == Some(a)
  {
    SplitLine(a);
    IntToStringRoundTrip(a.classId);
    FormatFixed6RoundTrip(a.xCenter);
    FormatFixed6RoundTrip(a.yCenter);
    FormatFixed6RoundTrip(a.width);
    FormatFixed6RoundTrip(a.height);
  }

  lemma {:induction false} ParseLinesRoundTrip(anns: seq<Annotation>)
    ensures ParseLines(Lines(anns)) == Some(anns)
  {
    var ls := Lines(anns);
    LinesIndex(anns);
    forall k | 0 <= k < |anns|
      ensures ParseLine(ls[k]) == Some(anns[k])
    {
      ParseLineRoundTrip(anns[k]);
    }
    ParseEachLine(ls, anns);
  }

  /** Lines that each read back to their annotation read back, in order, to
      the whole sequence. */
  lemma {:induction false} ParseEachLine(lines: seq<string>, anns: seq<Annotation>)
    requires |lines| == |anns|
    requires forall k :: 0 <= k < |lines| ==> ParseLine(lines[k]) == Some(anns[k])
    ensures ParseLines(lines) == Some(anns)
  {
    if |lines| > 0 {
      ParseEachLine(lines[1..], anns[1..]);
      assert [anns[0]] + anns[1..] == anns;
    }
  }

  /** The label file determines its annotations: reading it back gives the
      same class ids and quantised values, one per line, in order. */
  lemma LabelRoundTrip(anns: seq<Annotation>)
    ensures ParseLabel(LabelText(anns)) == Some(anns)
  {
    SplitLabel(anns);
    var parts := Split(LabelText(anns), '\n');
    assert parts[..|parts| - 1] == Lines(anns);
    ParseLinesRoundTrip(anns);
  }
}
